=== FILE: README.md ===
# quark element runtime, modelled in Dafny

This project models the runtime core of the quark custom-element library
(`packages/core/src/index.ts`). That core connects a component's declared
properties to the element's string-keyed attribute store. It also runs the
small lifecycle state machine around that store. The model covers these parts:

- **Values.** The JavaScript values that pass through properties: `null`,
  `undefined`, booleans, integer-valued numbers, `NaN`, strings and opaque
  objects. The model defines their truthiness, `isEmpty`, `===`,
  `Object.is`, `indexOf`, `Number(...)` and `String(...)`.
- **Conversion.** `defaultConverter`, and the choice between the default
  converter, a component's own converter function and no converter.
- **Declarations.** The four decorator registries (`PropDefs`,
  `StateDescriptors`, `ComputedDescriptors`, `UserWatchers`) are tables
  keyed by class and then by key, in declaration order. They are filled by
  `createProperty`, `createState`, `computed` and `watch`. The class-level
  queries `observedProps`, `observedAttributes` and `isBooleanProperty` read
  them.
- **Construction.** The element constructor builds the instance's `Props`
  row, one slot per declared attribute. Each slot captures the field's
  initial value as its default. The constructor also initialises the state
  slots and creates the user watchers.
- **Reflection.** The accessor pair of a declared property:
  - the getter records a dependency read, then converts the current
    attribute through `convertAttrValue`;
  - the setter converts the value, then sets the attribute to `""`, sets it
    to the value's string form, or removes it.
- **State slots.** The state getter, and the setter that ignores an
  `Object.is`-equal assignment.
- **Update queue.** The queue of deferred `componentDidUpdate` calls:
  `queueUpdated` and `flushUpdatedQueue`.
- **Rendering.** The render watcher callback, with its `initRender` flag:
  - the first run mounts;
  - every later run flushes the update queue.

  This part also covers `addController` and `removeController`.
- **Lifecycle.** `connectedCallback`, `disconnectedCallback` and
  `attributeChangedCallback`. The last one includes the correction for a
  boolean attribute that receives the text `"false"`, and the `_oldVals`
  stash of previous values.

An element is an immutable record. It holds the attribute store, the
property slots, the state slot values, the controllers, the update queue,
the `_oldVals` stash, the render watcher and a connected flag. Every
observable side effect is appended to an effect trace. The effects are
dependency reads and notifications, attribute writes, patches of the shadow
root, controller callbacks, and the mount, update and unmount callbacks.
Callbacks and listeners are recorded, not run. Each lifecycle operation is a
pure function from element to element.

The platform calls `attributeChangedCallback` after every write to an
observed attribute. The model does not make that call from inside a
transition. The lemmas that need the platform's follow-up call
`AttributeChanged` explicitly for it.

Two behaviours of the code are easy to miss:

- `disconnectedCallback` does not stop the render watcher.
- A second `connectedCallback` does not run the render callback directly:
  the watcher already exists. The attribute write-backs still reach it
  indirectly, because the platform's follow-up attribute callbacks notify
  the property cells the render watcher depends on; that follow-up is not
  composed here (see "Left out").

`Lifecycle.ReconnectDoesNotRender` states this behaviour.

Modules, in dependency order: `Wrappers`, `OrderedMap` (a JavaScript `Map`
with insertion order), `Decimal` (integer text), `Values`, `Conversion`,
`Declarations`, `Instance`, `Reflection`, `UpdateQueue`, `StateSlots`,
`Render`, `Lifecycle`.

## Model

| member | source | states |
|---|---|---|
| Values.IsEmpty | packages/core/src/index.ts:30 | A value is empty exactly when it is `null`, `undefined`, `NaN` or `""`; `false`, `0` and every truthy value are not empty |
| Values.IndexOf | packages/core/src/index.ts:39 | The result is the first position holding a value strictly equal to the needle, or -1 exactly when no position does; NaN is found nowhere |
| Values.ToNumberOfFormat | packages/core/src/index.ts:36 | `Number` applied to the decimal text of an integer gives that integer back |
| Decimal.ParseFormat | packages/core/src/index.ts:36 | Parsing the decimal text of an integer, sign included, returns that integer |
| Conversion.DefaultConvert | packages/core/src/index.ts:32-43 | Boolean type: the result is a boolean, and it is `false` exactly for `null`, `undefined`, `false` and `"false"`. Number type: an empty input comes back unchanged; any other input becomes a number or NaN, and a number stays itself. Any other type: the identity |
| Conversion.Convert | packages/core/src/index.ts:238-242 | The default converter is applied as `defaultConverter`, a component's own converter function is called as `converter(value, type)`, and when the converter is not a function the value is returned unchanged |
| Conversion.BooleanEmptyStringAndZeroAreTrue | packages/core/src/index.ts:39 | For a boolean property, `""`, `0` and NaN all convert to `true` |
| Conversion.NumberReadsDecimal | packages/core/src/index.ts:36 | For a number property, decimal text converts to the integer it denotes |
| Declarations.Merge | packages/core/src/index.ts:369-372 | Each option that is given overrides its default; each option that is absent keeps the default (`observed` true, type `String`, the default converter) |
| Declarations.AttributeName | packages/core/src/index.ts:367 | The attribute key is the `attribute` option when it is non-empty, and otherwise the property name |
| Declarations.CreateProperty | packages/core/src/index.ts:366-375 | After the call, the class's row maps the attribute key to the merged declaration and property name; every other key of that class, every other class and the other three registries are unchanged |
| Declarations.CreatePropertyValid | packages/core/src/index.ts:366-375 | Declaring a property keeps every registry row free of duplicate keys, because re-declaring a key replaces it |
| Declarations.CreateState | packages/core/src/index.ts:377-379 | The property name becomes a registered state of the class, appended last when it is new; every other state key of the class, every other class and the other registries are unchanged |
| Declarations.CreateStateValid | packages/core/src/index.ts:377-379 | Registering a state keeps every registry row free of duplicate keys |
| Declarations.DeclareComputed | packages/core/src/index.ts:381-399 | A descriptor with a getter registers that getter under the property name; a descriptor without one leaves the registry unchanged. Every other computed key of the class and every other class are unchanged |
| Declarations.DeclareComputedValid | packages/core/src/index.ts:381-399 | Registering a computed getter keeps every registry row free of duplicate keys |
| Declarations.DeclareWatch | packages/core/src/index.ts:401-416 | A descriptor whose value is a function registers the path and that callback; any other descriptor leaves the registry unchanged. Every other watch key of the class and every other class are unchanged |
| Declarations.DeclareWatchValid | packages/core/src/index.ts:401-416 | Registering a watch keeps every registry row free of duplicate keys |
| Declarations.ObservedPositions | packages/core/src/index.ts:146-154 | The positions of exactly the declared entries whose `observed` option is set, strictly increasing |
| Declarations.ObservedProps | packages/core/src/index.ts:146-154 | The result holds exactly the declared entries whose `observed` option is set, in declaration order (its k-th entry is the declaration at the k-th observed position, and those positions increase), and keeps the keys distinct |
| Declarations.ObservedAttributes | packages/core/src/index.ts:156-158 | A key is listed exactly when it is declared with `observed` set |
| Declarations.IsBooleanProperty | packages/core/src/index.ts:160-168 | With distinct keys, an attribute is a boolean property exactly when it is declared with type `Boolean` |
| Declarations.ObservedAttributeIff | packages/core/src/index.ts:146-158 | With distinct keys, a declared attribute is listed as observed exactly when its own declaration sets `observed` |
| Declarations.DeclaredBooleanIff | packages/core/src/index.ts:160-168 | A just-declared attribute is a boolean property exactly when its options ask for type `Boolean` |
| Declarations.DeclaredObservedIff | packages/core/src/index.ts:146-158 | A just-declared attribute is observed exactly when its `observed` option is not turned off |
| Instance.Slots | packages/core/src/index.ts:207-249 | The `Props` row has the declared attribute keys, in order; each slot takes its type, converter and property name from its declaration and its default from the field's initial value |
| Instance.WatchersCreated | packages/core/src/index.ts:295-304 | One user watcher is created per registered watch, in declaration order, on its path |
| Instance.Construct | packages/core/src/index.ts:170-305 | A new instance has one slot per declared attribute, defaults taken from the fields, one state slot per registered state holding the field's initial value, and its user watchers created. Its queue, stash and controller set are empty, it has no render watcher, and it is not connected |
| Instance.ConstructValid | packages/core/src/index.ts:190-249 | An instance built from a registry with distinct keys has distinct keys, and its slots match its class's declarations |
| Reflection.ConvertAttrValue | packages/core/src/index.ts:219-243 | The default is returned when the raw value is missing, or empty for a non-boolean type, and the default is not empty. A non-empty raw value, an empty string for a boolean, or any raw value when the default is empty goes through the converter |
| Reflection.GetProperty | packages/core/src/index.ts:255-258 | A read records one dependency read of the property's cell and returns the converted current attribute |
| Reflection.Serialize | packages/core/src/index.ts:266-274 | A falsy value removes the attribute; the empty attribute text arises exactly from `true` |
| Reflection.SetProperty | packages/core/src/index.ts:259-275 | The converted value decides the attribute: `""` for a truthy boolean, the string form for another truthy value, removal for a falsy one. No other attribute changes, and exactly one attribute write is recorded |
| Reflection.SetPropertyIdempotent | packages/core/src/index.ts:259-275 | Assigning the same value twice leaves the attributes as one assignment does |
| Reflection.BooleanRoundTrip | packages/core/src/index.ts:255-275 | For a boolean property whose default is empty or `false`, a read after assigning `x` gives the boolean conversion of `x` |
| Reflection.BooleanFalseRoundTripIff | packages/core/src/index.ts:230-236 | Assigning `false` to a boolean property reads back `false` exactly when its default is empty or `false` |
| Reflection.BooleanTrueRoundTrip | packages/core/src/index.ts:255-275 | Assigning `true` to a boolean property always reads back `true` |
| Reflection.StringRoundTrip | packages/core/src/index.ts:255-275 | For a string property, a non-empty string reads back unchanged |
| Reflection.NumberRoundTrip | packages/core/src/index.ts:255-275 | For a number property, a non-zero integer reads back as the same number |
| Reflection.ZeroRoundTripIff | packages/core/src/index.ts:230-274 | Assigning `0` to a number property removes its attribute, so `0` reads back exactly when the property's default is `0` |
| Reflection.RemovedReadsDefault | packages/core/src/index.ts:230-236 | A property whose attribute is absent reads as its default, if that default is not empty |
| Reflection.PresentBooleanReadsTrue | packages/core/src/index.ts:230-240 | A boolean attribute present with the empty value reads `true`, whatever the default |
| UpdateQueue.QueueUpdated | packages/core/src/index.ts:322-324 | One deferred call is appended at the end of the queue; nothing else changes |
| UpdateQueue.FlushUpdatedQueue | packages/core/src/index.ts:326-329 | Every queued call runs, in queue order, and the queue is left empty; nothing else changes |
| UpdateQueue.FlushIsFifo | packages/core/src/index.ts:322-329 | After queueing several calls and flushing, the calls that were already queued run first, then the new ones, in the order they were queued |
| UpdateQueue.FlushIdempotent | packages/core/src/index.ts:326-329 | A second flush right after a first one runs nothing |
| StateSlots.GetState | packages/core/src/index.ts:338-341 | A read records one dependency read of the slot's cell and returns the stored value |
| StateSlots.SetState | packages/core/src/index.ts:342-359 | An `Object.is`-equal assignment changes nothing. Any other assignment stores the value, notifies the cell once, and queues exactly one update (name, old value, new value) when `componentDidUpdate` is defined |
| StateSlots.SetThenGet | packages/core/src/index.ts:338-359 | A read after an assignment returns the assigned value |
| StateSlots.SetStateTwice | packages/core/src/index.ts:342-359 | A repeated assignment neither notifies nor queues |
| StateSlots.NaNIsUnchanged | packages/core/src/index.ts:345-347 | Assigning NaN over NaN is a no-op |
| StateSlots.SetStateFrames | packages/core/src/index.ts:332-364 | Other state slots keep their values |
| Render.ControllerCalls | packages/core/src/index.ts:544 | Exactly the controllers that define the callback are called, each with that callback |
| Render.ControllerCallsInOrder | packages/core/src/index.ts:544 | With distinct registrations, every call goes to a registered controller, an earlier call to a controller registered earlier, and no call is repeated |
| Render.AddedControllerCalledLast | packages/core/src/index.ts:454-459 | A newly added controller is called after all the earlier ones, by every callback it defines |
| Render.AddController | packages/core/src/index.ts:454-459 | A new controller is registered with its callbacks, appended after every existing one; an existing registration is kept as it was. If the element is connected, the controller's `hostConnected` runs at once when defined. No other registration and nothing else changes |
| Render.RemoveController | packages/core/src/index.ts:465-467 | The controller is no longer registered; every other registration is unchanged; distinct registrations stay distinct |
| Render.RemovedControllerKeepsOrder | packages/core/src/index.ts:465-467 | After `Set.delete`, the remaining controllers are still called once each, in the order they were first registered |
| OrderedMap.RemoveKeepsOrder | packages/core/src/index.ts:466 | Deleting one entry keeps the remaining keys in their relative iteration order |
| Render.RemovedControllerIsNotCalled | packages/core/src/index.ts:465-467 | A removed controller takes part in no later lifecycle callback |
| Render.RenderEffects | packages/core/src/index.ts:428-434 | A truthy tree is patched into the shadow root and a falsy one is skipped |
| Render.RenderCallback | packages/core/src/index.ts:540-555 | A render run only appends to the trace and clears the first-run flag; the first run keeps the queue, every later run empties it |
| Render.RenderCallsControllers | packages/core/src/index.ts:543-544 | A render run calls a controller exactly when it defines `hostMounted` (first run) or `hostUpdated` (later runs); no other controller callback happens |
| Render.FirstRenderMounts | packages/core/src/index.ts:540-551 | The first run keeps the queue, patches first, fires the mount callback exactly once as its last effect (when defined), and runs no update callback |
| Render.LaterRenderFlushes | packages/core/src/index.ts:540-554 | A later run empties the queue, ends with the queued update callbacks in order, and fires no mount callback |
| Render.GetOrInitRenderWatcher | packages/core/src/index.ts:534-561 | The first call creates the watcher and runs its callback once; later calls change nothing |
| Render.NoFurtherMounts | packages/core/src/index.ts:546-554 | Re-renders after the first add no mount callback |
| Render.MountedOnce | packages/core/src/index.ts:534-561 | However often the element re-renders, the mount callback fires exactly once (when defined) |
| Lifecycle.UpdateProps | packages/core/src/index.ts:437-443 | Writing the attributes back through their properties changes only the attributes and appends to the trace |
| Lifecycle.UpdatePropsFromWritesOnly | packages/core/src/index.ts:437-443 | Writing the attributes back records attribute writes and nothing else |
| Lifecycle.UpdatePropsFromUntouched | packages/core/src/index.ts:437-443 | Attributes of properties that are not observed are left alone |
| Lifecycle.UpdatePropsFromNormalizes | packages/core/src/index.ts:437-443 | Each observed attribute ends up as the setter writes back its own current text |
| Lifecycle.NormalizeIdempotent | packages/core/src/index.ts:440 | With a converter of the library, writing an attribute back a second time gives the same text as the first time |
| Lifecycle.UpdatePropsKeyIdempotent | packages/core/src/index.ts:437-443 | When every property uses a converter of the library, writing back twice leaves any one attribute as writing back once does |
| Lifecycle.UpdatePropsIdempotent | packages/core/src/index.ts:437-443 | When every property uses a converter of the library, writing back twice leaves the attribute store as writing back once does |
| Lifecycle.ConnectedCallback | packages/core/src/index.ts:563-567 | After connecting, the element is connected, has a render watcher, and holds the written-back attributes; only the attributes, the trace, the watcher and the connected flag change, and the earlier trace is kept |
| Lifecycle.ReconnectWritesSameAttributes | packages/core/src/index.ts:563-567 | Connecting, disconnecting and connecting again leaves the attributes the first connection wrote back, when every property uses a converter of the library |
| Lifecycle.TransitionsKeepValid | packages/core/src/index.ts:454-631 | Connecting, disconnecting, an attribute change and adding or removing a controller keep the slots matched to the declarations and every key distinct |
| Lifecycle.FirstConnectOrder | packages/core/src/index.ts:540-566 | The first connection's effects are, in order: the attribute write-backs (attribute writes only), `hostConnected` on the controllers that define it, the patch of a truthy tree, `hostMounted` on the controllers that define it, and the mount callback last when defined; no other controller callback runs |
| Lifecycle.FirstConnectMounts | packages/core/src/index.ts:563-567 | Before the platform's follow-up attribute callbacks, the first connection keeps the queue and fires the mount callback exactly once (when defined), as its last effect |
| Lifecycle.ReconnectDoesNotRender | packages/core/src/index.ts:563-567 | Connecting an element that already has a render watcher does not run the render callback directly: before the platform's follow-up attribute callbacks it only writes attributes back and calls the controllers, with no patch, no mount callback and no update callback |
| Lifecycle.DisconnectedCallback | packages/core/src/index.ts:623-631 | Disconnecting adds effects and clears the connected flag; the attributes, the queue and the render watcher stay as they are |
| Lifecycle.DisconnectOrder | packages/core/src/index.ts:623-631 | The effects run in this order: the unmount callback when defined (first), then listener removal (at the next position), then only `hostDisconnected` calls, on exactly the controllers that define it, then clearing the shadow root last. No mount or update callback runs |
| Lifecycle.AttributeChanged | packages/core/src/index.ts:572-621 | Only the attributes, the trace, the queue and the stash change. An unknown key changes nothing. The "false" correction stashes the old text (when `componentDidUpdate` is defined) and writes "false" through the setter: the only effect is that setter's one attribute write, leaving the attribute as the setter serialises "false"; it neither notifies nor queues. Any other change notifies once, then (when `componentDidUpdate` is defined) reads the property and queues one update whose previous value is the stashed text if one was stashed, consuming the stash |
| Lifecycle.AttributeChangedWithShape | packages/core/src/index.ts:572-621 | Under either stash rule, the callback changes only the attributes, the trace, the queue and the stash; the correction's only effect is the setter's attribute write, and any other change notifies, reads and queues one update with the resolved previous value |
| Lifecycle.AttributeChangedAsWritten | packages/core/src/index.ts:572-621 | As the source is written: the stashed text is used, and deleted, only when it is non-empty; otherwise the callback's old value is used and the stash is kept. Elsewhere it behaves as the corrected callback: only the attributes, the trace, the queue and the stash change, and an update records the notify and the read |
| Lifecycle.FalseCorrectionReportsTrueToFalse | packages/core/src/index.ts:585-619 | With the corrected stash rule, a `true` boolean that receives "false" has its attribute removed without an update. The platform's follow-up callback then queues exactly one update, from `true` to `false`, and the stash is consumed |
| Lifecycle.FalseCorrectionAsWrittenReportsFalseToFalse | packages/core/src/index.ts:605-610 | As written, the same scenario queues an update from `false` to `false` and leaves the stash entry behind |

## Left out

- Dependency tracking (`Dep`, `Watcher`) lives in `./computed`, which is not part of this model. A dependency read and a notification are recorded as effects. The render watcher is re-run explicitly, by `Render.Rerenders`, with the tree `render()` returns as a parameter.
- Computed getters and user watchers are registered and constructed. Their evaluation and caching are not modelled, for the same reason.
- The DOM and platform plumbing is not modelled: `attachShadow`, style-sheet injection, `customElements.define`, the tree renderer, `$on`/`$emit` and `EventController`. Patching the shadow root and unbinding listeners are recorded effects. An element is assumed to have its shadow root.
- Render.GetOrInitRenderWatcher: the model assumes that `new Watcher(this, cb, { render: true })` runs `cb` once, when it is constructed, and again only when it is re-run. That behaviour belongs to `./computed`, which is not part of this model. `Render.MountedOnce` and `Lifecycle.FirstConnectOrder` rest on this assumption.
- `requestUpdate` and `update` are not modelled as operations. Both log a message, get or create the render watcher (`Render.GetOrInitRenderWatcher`: before the first connection this runs the first, mounting render), then re-run it, which `Render.Rerenders` stands for.
- The deprecated `shouldComponentUpdate`, `createRef`, the `Fragment`/`h` re-exports and the decorator functions themselves are left out. The console output is left out too.
- The decorators' metaprogramming (`Object.defineProperty`) is represented by the registry tables filled before construction.
- Values.ToNumber: numbers are integers. Fractions, exponents, hexadecimal text, surrounding whitespace and `Infinity` parse to NaN in the model; JavaScript parses them to numbers. Negative zero does not exist in the model.
- Values.ToStr: integers are formatted in plain decimal at any size. JavaScript switches to exponent notation from 1e21 and loses precision beyond 2^53.
- The same property name declared under two attribute keys is not modelled specially. Each slot reads its default from the field as it was before any accessor replaced it.
- Inheritance between component classes is not modelled. The constructor reads the tables of the decorated class only, as the source does, and the model gives each class its own row.
- The platform's reaction to an attribute write is not delivered inside a transition. The lemmas apply `AttributeChanged` for it explicitly.
- A `componentDidUpdate` that changes state while the queue is being flushed is not modelled, because callbacks are recorded, not run.
- Lifecycle.NormalizeIdempotent: stated only for the library's converters. A component's own converter function may write back different text each time.
- Lifecycle.UpdatePropsKeyIdempotent: stated only when every property uses a converter of the library, for the reason above.
- Lifecycle.UpdatePropsIdempotent: stated only when every property uses a converter of the library, for the reason above.
- Lifecycle.ReconnectWritesSameAttributes: stated only when every property uses a converter of the library, for the reason above.
- Lifecycle.ConnectedCallback: the platform's follow-up `attributeChangedCallback` after each attribute write-back is not composed. Since `componentDidUpdate` is always a method (`packages/core/src/index.ts:523`), each follow-up would notify the property's cell (`packages/core/src/index.ts:599`) and queue an update (`packages/core/src/index.ts:613`).
- Lifecycle.FirstConnectMounts: the queue and the trace are stated before those follow-up callbacks; with them, the queue also gains one update per write-back.
- Lifecycle.ReconnectDoesNotRender: states that connecting does not run the render callback directly; the follow-up callbacks' notifications would reach the existing render watcher, which is not modelled here.
- `DblKeyMap` (`./dblKeyMap`) is not part of this model. It is taken to be a map of insertion-ordered maps, keyed by class and then by key.
- `models.ts` is not part of this model. The property options are taken to be `observed`, `type`, `converter` and `attribute`.

## Findings

| source | as written | input that shows it | evidently intended | confidence | as-written member | corrected member |
|---|---|---|---|---|---|---|
| packages/core/src/index.ts:605-610 | The stashed previous text is used only when it is truthy | A boolean property with `componentDidUpdate`, true (attribute `""`), receives the text "false". The stash holds `""`. The follow-up callback for the removal ignores it, reports `false` to `false`, and leaves the stash entry behind | Use the stashed text whenever one was stashed (`has` rather than truthiness), so that the update reports `true` to `false` | medium, not executed | Lifecycle.AttributeChangedAsWritten, Lifecycle.FalseCorrectionAsWrittenReportsFalseToFalse | Lifecycle.AttributeChanged, Lifecycle.FalseCorrectionReportsTrueToFalse |

=== FILE: conversion.dfy ===
/** Declared property types and the converters that turn a raw attribute or
    an assigned value into a property value (index.ts:32-43). */
module Conversion {
  import opened Values

  /** The `type` of a property declaration: the `String`, `Number` and
      `Boolean` constructors, or any other constructor (or an explicitly
      undefined type), which the converters treat alike. */
  datatype PropType = StringType | NumberType | BooleanType | OtherType(name: string)

  /** The `converter` of a property declaration: the library's default, a
      function of the component author, or a value that is not a function. */
  datatype Converter =
    | DefaultConverter
    | CustomConverter(f: (Value, PropType) -> Value)
    | NoConverter

  /** The values the default converter maps to `false` for a boolean type. */
  const FalseValues: seq<Value> := [Null, Str("false"), Bool(false), Undef]

  /** `defaultConverter(value, type)`. */
  function DefaultConvert(v: Value, t: PropType): (r: Value)
    ensures t == BooleanType ==> r.Bool?
    ensures t == BooleanType ==> (r == Bool(false) <==> v == Null || v == Undef || v == Bool(false) || v == Str("false"))
    ensures t == NumberType && IsEmpty(v) ==> r == v
    ensures t == NumberType && !IsEmpty(v) ==> r.Num? || r == NaN
    ensures t == NumberType && v.Num? ==> r == v
    ensures t != NumberType && t != BooleanType ==> r == v
  {
    match t
    case NumberType => if IsEmpty(v) then v else ToNumber(v)
    case BooleanType =>
      assert FalseValues[0] == Null && FalseValues[1] == Str("false");
      assert FalseValues[2] == Bool(false) && FalseValues[3] == Undef;
      Bool(!(IndexOf(FalseValues, v) > -1))
    case _ => v
  }

  /** `isFunction(converter)`. */
  predicate IsFunction(c: Converter) {
    !c.NoConverter?
  }

  /** `converter(value, type)` when the converter is a function, and the
      value itself otherwise. */
  function Convert(c: Converter, v: Value, t: PropType): (r: Value)
    ensures c == DefaultConverter ==> r == DefaultConvert(v, t)
    ensures c.CustomConverter? ==> r == c.f(v, t)
    ensures !IsFunction(c) ==> r == v
  {
    match c
    case DefaultConverter => DefaultConvert(v, t)
    case CustomConverter(f) => f(v, t)
    case NoConverter => v
  }

  /** Neither `""` nor `0` is false for a boolean property. */
  lemma BooleanEmptyStringAndZeroAreTrue()
    ensures DefaultConvert(Str(""), BooleanType) == Bool(true)
    ensures DefaultConvert(Num(0), BooleanType) == Bool(true)
    ensures DefaultConvert(NaN, BooleanType) == Bool(true)
  {
  }

  /** A number property reads decimal text as the integer it denotes. */
  lemma NumberReadsDecimal(n: int)
    ensures DefaultConvert(Str(Decimal.Format(n)), NumberType) == Num(n)
  {
    ToNumberOfFormat(n);
  }
}

=== FILE: decimal.dfy ===
/** Decimal text for integer-valued JavaScript numbers: `String(n)` for the
    attribute writer and the integer part of `Number(s)` for the numeric
    converter. */
module Decimal {
  import opened Wrappers

  predicate IsDigit(c: char) {
    '0' <= c <= '9'
  }

  predicate AllDigits(s: string) {
    forall i :: 0 <= i < |s| ==> IsDigit(s[i])
  }

  function DigitChar(d: nat): (c: char)
    requires d < 10
    ensures IsDigit(c)
  {
    (('0' as int) + d) as char
  }

  function DigitValue(c: char): (d: nat)
    requires IsDigit(c)
    ensures d < 10
  {
    (c as int) - ('0' as int)
  }

  /** The digits of a natural number, most significant first, no leading zeros. */
  function FormatNat(n: nat): (s: string)
    ensures |s| > 0 && AllDigits(s)
    ensures |s| > 1 ==> s[0] != '0'
    decreases n
  {
    if n < 10 then [DigitChar(n)]
    else FormatNat(n / 10) + [DigitChar(n % 10)]
  }

  /** The number a non-empty run of decimal digits denotes. */
  function ParseDigits(s: string): nat
    requires AllDigits(s)
  {
    if |s| == 0 then 0
    else ParseDigits(s[..|s| - 1]) * 10 + DigitValue(s[|s| - 1])
  }

  /** `String(n)` for an integer-valued number. */
  function Format(n: int): (s: string)
    ensures |s| > 0
  {
    if n < 0 then "-" + FormatNat(-n) else FormatNat(n)
  }

  /** An optional sign followed by one or more decimal digits; anything
      else is not an integer literal. */
  function Parse(s: string): (r: Option<int>)
    ensures r.Some? ==> |s| > 0
  {
    if |s| > 1 && (s[0] == '-' || s[0] == '+') && AllDigits(s[1..]) then
      var d: int := ParseDigits(s[1..]);
      Some(if s[0] == '-' then -d else d)
    else if |s| > 0 && AllDigits(s) then Some(ParseDigits(s))
    else None
  }

  lemma {:induction false} ParseFormatNat(n: nat)
    ensures ParseDigits(FormatNat(n)) == n
    decreases n
  {
    var s := FormatNat(n);
    if n >= 10 {
      ParseFormatNat(n / 10);
      assert s[..|s| - 1] == FormatNat(n / 10);
    }
  }

  /** Reading back the text written for a number gives the number. */
  lemma ParseFormat(n: int)
    ensures Parse(Format(n)) == Some(n)
  {
    var s := Format(n);
    if n < 0 {
      assert s[1..] == FormatNat(-n);
      ParseFormatNat(-n);
      assert |s| > 1 && s[0] == '-' && AllDigits(s[1..]);
      var d: int := ParseDigits(s[1..]);
      assert Parse(s) == Some(-d);
    } else {
      ParseFormatNat(n);
      assert s == FormatNat(n);
      assert IsDigit(s[0]);
      assert Parse(s) == Some(ParseDigits(s));
    }
  }
}

=== FILE: declarations.dfy ===
/** The declaration tables the decorators fill in before any element is
    constructed (index.ts:45-49, 88-136, 366-416), and the class-level
    queries over them (index.ts:146-168). Each table is keyed by (class,
    key) and keeps the keys of one class in declaration order. */
module Declarations {
  import opened Wrappers
  import opened OrderedMap
  import opened Values
  import opened Conversion

  /** Identity of a component class. */
  type ClassId = nat

  /** Identity of a function the component author wrote. */
  type FnId = nat

  /** The options object given to the property decorator; `None` means the
      key was absent from the object. A key given with an undefined value
      overrides the default like any other value; for `observed` that reads
      as `false`, for `converter` as a non-function. */
  datatype PropertyOptions = PropertyOptions(
    observed: Option<bool>,
    typ: Option<PropType>,
    converter: Option<Converter>,
    attribute: Option<string>)

  const NoOptions: PropertyOptions := PropertyOptions(None, None, None, None)

  /** A property declaration once the options are merged over the defaults. */
  datatype PropertyDeclaration = PropertyDeclaration(observed: bool, typ: PropType, converter: Converter)

  /** `defaultPropertyDeclaration`. */
  const DefaultDeclaration: PropertyDeclaration := PropertyDeclaration(true, StringType, DefaultConverter)

  /** `{...defaultPropertyDeclaration, ...options}`: every key the options
      give wins, every other key keeps its default. */
  function Merge(o: PropertyOptions): (d: PropertyDeclaration)
    ensures o == NoOptions ==> d == DefaultDeclaration
    ensures o.observed.Some? ==> d.observed == o.observed.value
    ensures o.observed.None? ==> d.observed == DefaultDeclaration.observed
    ensures o.typ.Some? ==> d.typ == o.typ.value
    ensures o.typ.None? ==> d.typ == DefaultDeclaration.typ
    ensures o.converter.Some? ==> d.converter == o.converter.value
    ensures o.converter.None? ==> d.converter == DefaultDeclaration.converter
  {
    PropertyDeclaration(
      o.observed.GetOr(DefaultDeclaration.observed),
      o.typ.GetOr(DefaultDeclaration.typ),
      o.converter.GetOr(DefaultDeclaration.converter))
  }

  /** `options.attribute || propName`: the attribute key of a property; an
      empty attribute name falls back to the property name. */
  function AttributeName(propName: string, o: PropertyOptions): (a: string)
    ensures o.attribute.Some? && o.attribute.value != "" ==> a == o.attribute.value
    ensures o.attribute.None? || o.attribute.value == "" ==> a == propName
  {
    match o.attribute
    case Some(name) => if name != "" then name else propName
    case None => propName
  }

  /** An entry of `PropDefs`: the merged declaration and the property name. */
  datatype PropDef = PropDef(decl: PropertyDeclaration, propName: string)

  /** A property descriptor as the `computed` and `watch` decorators see it:
      its getter, and its value when that value is a function. */
  datatype Descriptor = Descriptor(getter: Option<FnId>, fnValue: Option<FnId>)

  /** An entry of `UserWatchers`: the watched path and the callback. */
  datatype WatchDef = WatchDef(path: string, callback: FnId)

  /** A two-level table: class, then key in declaration order. */
  type Table<V> = map<ClassId, OMap<string, V>>

  /** The entries of one class; a class without entries has an empty row. */
  function Row<V>(t: Table<V>, cls: ClassId): OMap<string, V> {
    if cls in t then t[cls] else []
  }

  /** Sets one (class, key) entry. */
  function TableSet<V(!new)>(t: Table<V>, cls: ClassId, k: string, v: V): (r: Table<V>)
    ensures Row(r, cls) == Put(Row(t, cls), k, v)
    ensures forall c :: c != cls ==> Row(r, c) == Row(t, c)
  {
    t[cls := Put(Row(t, cls), k, v)]
  }

  /** `PropDefs`, `StateDescriptors`, `ComputedDescriptors` and `UserWatchers`. */
  datatype Registry = Registry(
    props: Table<PropDef>,
    states: Table<()>,
    computed: Table<FnId>,
    watchers: Table<WatchDef>)

  const EmptyRegistry: Registry := Registry(map[], map[], map[], map[])

  /** Every row of every table has distinct keys. */
  ghost predicate ValidRegistry(reg: Registry) {
    && (forall c :: Distinct(Row(reg.props, c)))
    && (forall c :: Distinct(Row(reg.states, c)))
    && (forall c :: Distinct(Row(reg.computed, c)))
    && (forall c :: Distinct(Row(reg.watchers, c)))
  }

  /** `createProperty`: records the merged declaration under the property's
      attribute key; nothing else in the registry changes. */
  function CreateProperty(reg: Registry, cls: ClassId, propName: string, o: PropertyOptions): (r: Registry)
    ensures Get(Row(r.props, cls), AttributeName(propName, o)) == Some(PropDef(Merge(o), propName))
    ensures Keys(Row(r.props, cls)) == if AttributeName(propName, o) in Keys(Row(reg.props, cls))
      then Keys(Row(reg.props, cls)) else Keys(Row(reg.props, cls)) + [AttributeName(propName, o)]
    ensures forall a :: a != AttributeName(propName, o) ==> Get(Row(r.props, cls), a) == Get(Row(reg.props, cls), a)
    ensures forall c :: c != cls ==> Row(r.props, c) == Row(reg.props, c)
    ensures r.states == reg.states && r.computed == reg.computed && r.watchers == reg.watchers
  {
    reg.(props := TableSet(reg.props, cls, AttributeName(propName, o), PropDef(Merge(o), propName)))
  }

  /** `createState`: registers a state slot under its property name; the
      class's other state keys keep their place, a new key comes last. */
  function CreateState(reg: Registry, cls: ClassId, propName: string): (r: Registry)
    ensures Get(Row(r.states, cls), propName) == Some(())
    ensures Keys(Row(r.states, cls)) ==
      if propName in Keys(Row(reg.states, cls)) then Keys(Row(reg.states, cls)) else Keys(Row(reg.states, cls)) + [propName]
    ensures forall k :: k != propName ==> Get(Row(r.states, cls), k) == Get(Row(reg.states, cls), k)
    ensures forall c :: c != cls ==> Row(r.states, c) == Row(reg.states, c)
    ensures r.props == reg.props && r.computed == reg.computed && r.watchers == reg.watchers
  {
    reg.(states := TableSet(reg.states, cls, propName, ()))
  }

  /** `computed`: registers the getter; a descriptor without a getter is
      ignored. The class's other keys and the other classes are kept. */
  function DeclareComputed(reg: Registry, cls: ClassId, propName: string, d: Descriptor): (r: Registry)
    ensures d.getter.None? ==> r == reg
    ensures d.getter.Some? ==> Get(Row(r.computed, cls), propName) == d.getter
    ensures forall k :: k != propName ==> Get(Row(r.computed, cls), k) == Get(Row(reg.computed, cls), k)
    ensures forall c :: c != cls ==> Row(r.computed, c) == Row(reg.computed, c)
    ensures r.props == reg.props && r.states == reg.states && r.watchers == reg.watchers
  {
    match d.getter
    case Some(g) => reg.(computed := TableSet(reg.computed, cls, propName, g))
    case None => reg
  }

  /** `watch`: registers the watched path with the decorated method as its
      callback; a descriptor whose value is not a function is ignored. The
      class's other keys and the other classes are kept. */
  function DeclareWatch(reg: Registry, cls: ClassId, propName: string, d: Descriptor, path: string): (r: Registry)
    ensures d.fnValue.None? ==> r == reg
    ensures d.fnValue.Some? ==> Get(Row(r.watchers, cls), propName) == Some(WatchDef(path, d.fnValue.value))
    ensures forall k :: k != propName ==> Get(Row(r.watchers, cls), k) == Get(Row(reg.watchers, cls), k)
    ensures forall c :: c != cls ==> Row(r.watchers, c) == Row(reg.watchers, c)
    ensures r.props == reg.props && r.states == reg.states && r.computed == reg.computed
  {
    match d.fnValue
    case Some(m) => reg.(watchers := TableSet(reg.watchers, cls, propName, WatchDef(path, m)))
    case None => reg
  }

  /** The positions of the declared properties whose `observed` option is
      set: every such position, each once, in increasing order. */
  function ObservedPositions(defs: OMap<string, PropDef>): (ps: seq<nat>)
    ensures |ps| <= |defs|
    ensures forall k :: 0 <= k < |ps| ==> ps[k] < |defs| && defs[ps[k]].value.decl.observed
    ensures forall k, l :: 0 <= k < l < |ps| ==> ps[k] < ps[l]
    ensures forall i :: 0 <= i < |defs| && defs[i].value.decl.observed ==> i in ps
    decreases |defs|
  {
    if |defs| == 0 then []
    else
      var rest := ObservedPositions(defs[..|defs| - 1]);
      if defs[|defs| - 1].value.decl.observed then rest + [|defs| - 1] else rest
  }

  /** `observedProps`: the declared properties whose `observed` option is
      set, in declaration order: the result lists the entries at the
      observed positions, lowest position first. */
  function ObservedProps(defs: OMap<string, PropDef>): (r: OMap<string, PropDef>)
    ensures |r| == |ObservedPositions(defs)| && |r| <= |defs|
    ensures forall k :: 0 <= k < |r| ==> r[k] == defs[ObservedPositions(defs)[k]]
    ensures forall e :: e in r <==> e in defs && e.value.decl.observed
    ensures Distinct(defs) ==> Distinct(r)
  {
    var ps := ObservedPositions(defs);
    var r := seq(|ps|, k requires 0 <= k < |ps| => defs[ps[k]]);
    assert forall e :: e in defs && e.value.decl.observed ==> e in r by {
      forall e | e in defs && e.value.decl.observed
        ensures e in r
      {
        var i :| 0 <= i < |defs| && defs[i] == e;
        var k :| 0 <= k < |ps| && ps[k] == i;
        assert r[k] == e;
      }
    }
    r
  }

  /** `observedAttributes`: the attribute keys of the observed properties. */
  function ObservedAttributes(defs: OMap<string, PropDef>): (r: seq<string>)
    ensures |r| <= |defs|
    ensures forall a :: a in r <==> exists d :: Entry(a, d) in defs && d.decl.observed
  {
    var obs := ObservedProps(defs);
    assert forall a :: a in Keys(obs) ==> Entry(a, obs[IndexOfKey(obs, a)].value) in obs;
    Keys(obs)
  }

  /** `isBooleanProperty`: the attribute is declared, with type `Boolean`. */
  function IsBooleanProperty(defs: OMap<string, PropDef>, attr: string): (r: bool)
    ensures r ==> attr in Keys(defs)
    ensures Distinct(defs) ==> (r <==> exists d :: Entry(attr, d) in defs && d.decl.typ == BooleanType)
  {
    match Get(defs, attr)
    case Some(def) =>
      assert Distinct(defs) ==> forall d :: Entry(attr, d) in defs ==> d == def by {
        if Distinct(defs) {
          forall d | Entry(attr, d) in defs
            ensures d == def
          {
            var i :| 0 <= i < |defs| && defs[i] == Entry(attr, d);
            GetAt(defs, i);
          }
        }
      }
      def.decl.typ == BooleanType
    case None => false
  }

  /** Declaring a property keeps the registry's rows free of duplicates. */
  lemma CreatePropertyValid(reg: Registry, cls: ClassId, propName: string, o: PropertyOptions)
    requires ValidRegistry(reg)
    ensures ValidRegistry(CreateProperty(reg, cls, propName, o))
  {
    PutDistinct(Row(reg.props, cls), AttributeName(propName, o), PropDef(Merge(o), propName));
  }

  /** Registering a state keeps the registry's rows free of duplicates. */
  lemma CreateStateValid(reg: Registry, cls: ClassId, propName: string)
    requires ValidRegistry(reg)
    ensures ValidRegistry(CreateState(reg, cls, propName))
  {
    PutDistinct(Row(reg.states, cls), propName, ());
  }

  /** Registering a computed getter keeps the registry's rows free of duplicates. */
  lemma DeclareComputedValid(reg: Registry, cls: ClassId, propName: string, d: Descriptor)
    requires ValidRegistry(reg)
    ensures ValidRegistry(DeclareComputed(reg, cls, propName, d))
  {
    if d.getter.Some? {
      PutDistinct(Row(reg.computed, cls), propName, d.getter.value);
    }
  }

  /** Registering a user watcher keeps the registry's rows free of duplicates. */
  lemma DeclareWatchValid(reg: Registry, cls: ClassId, propName: string, d: Descriptor, path: string)
    requires ValidRegistry(reg)
    ensures ValidRegistry(DeclareWatch(reg, cls, propName, d, path))
  {
    if d.fnValue.Some? {
      PutDistinct(Row(reg.watchers, cls), propName, WatchDef(path, d.fnValue.value));
    }
  }

  /** A declared attribute is boolean exactly when the options ask for `Boolean`. */
  lemma DeclaredBooleanIff(reg: Registry, cls: ClassId, propName: string, o: PropertyOptions)
    ensures IsBooleanProperty(Row(CreateProperty(reg, cls, propName, o).props, cls), AttributeName(propName, o))
        <==> o.typ == Some(BooleanType)
  {
  }

  /** A declared attribute is observed exactly when its `observed` option is
      not turned off. */
  lemma DeclaredObservedIff(reg: Registry, cls: ClassId, propName: string, o: PropertyOptions)
    requires ValidRegistry(reg)
    ensures AttributeName(propName, o) in ObservedAttributes(Row(CreateProperty(reg, cls, propName, o).props, cls))
        <==> o.observed != Some(false)
  {
    var a := AttributeName(propName, o);
    var row := Row(CreateProperty(reg, cls, propName, o).props, cls);
    CreatePropertyValid(reg, cls, propName, o);
    ObservedAttributeIff(row, a);
  }

  /** With distinct keys, a declared attribute is observed exactly when its
      own declaration says so. */
  lemma ObservedAttributeIff(defs: OMap<string, PropDef>, a: string)
    requires Distinct(defs) && Get(defs, a).Some?
    ensures a in ObservedAttributes(defs) <==> Get(defs, a).value.decl.observed
  {
    if a in ObservedAttributes(defs) {
      var d :| Entry(a, d) in defs && d.decl.observed;
      var i :| 0 <= i < |defs| && defs[i] == Entry(a, d);
      GetAt(defs, i);
    } else {
      assert Entry(a, Get(defs, a).value) in defs;
    }
  }
}

=== FILE: instance.dfy ===
/** The state of one element instance and the record of the effects its
    callbacks perform, and the construction step that builds the instance's
    property slots and state slots from its class's declarations
    (index.ts:170-305, 318-320, 418-420, 570). */
module Instance {
  import opened Wrappers
  import opened OrderedMap
  import opened Values
  import opened Conversion
  import opened Declarations

  /** Whether the component's `componentDidMount`, `componentDidUpdate` and
      `componentWillUnmount` members are functions. */
  datatype Hooks = Hooks(didMount: bool, didUpdate: bool, willUnmount: bool)

  /** The optional callbacks of a reactive controller. */
  datatype Hook = HostConnected | HostMounted | HostUpdated | HostDisconnected

  /** Identity of a controller object. */
  type ControllerId = nat

  /** The dependency cell of a declared property (by attribute key) or of a state slot (by name). */
  datatype DepId = PropDep(attr: string) | StateDep(name: string)

  /** The arguments of one `componentDidUpdate(propName, resolvedOldVal, newValue)` call. */
  datatype Update = Update(name: string, before: Value, after: Value)

  /** Observable effects, in the order they happen. */
  datatype Effect =
    | Depend(dep: DepId)                  // a dependency cell was read
    | Notify(dep: DepId)                  // a dependency cell announced a change
    | SetAttr(key: string, text: string)  // `setAttribute`
    | RemoveAttr(key: string)             // `removeAttribute`
    | Patch(view: Value)                  // the tree renderer patched the shadow root; `Null` clears it
    | ControllerCall(id: ControllerId, hook: Hook)
    | DidMount
    | DidUpdate(update: Update)
    | WillUnmount
    | ListenersRemoved                    // every `$on` listener was unbound
    | WatcherCreated(path: string)        // a user watcher was constructed

  /** An entry of `Props`: the property name, and what its `convertAttrValue`
      closure captured (the declared type and converter and the default). */
  datatype Slot = Slot(propName: string, typ: PropType, converter: Converter, default: Value)

  /** `_renderWatcher` together with the `initRender` flag of its callback. */
  datatype RenderWatcher = NoWatcher | Watching(initRender: bool)

  datatype Element = Element(
    defs: OMap<string, PropDef>,             // the class's row of `PropDefs`
    hooks: Hooks,
    attrs: map<string, string>,              // the attribute store
    props: OMap<string, Slot>,               // the instance's row of `Props`
    states: map<string, Value>,              // state slot values
    controllers: OMap<ControllerId, set<Hook>>,  // `_controllers`, with the callbacks each defines
    queue: seq<Update>,                      // `_updatedQueue`
    oldVals: map<string, Option<string>>,    // `_oldVals`
    watcher: RenderWatcher,
    connected: bool,                         // `isConnected`
    trace: seq<Effect>)

  /** A read through an accessor: the element with the read recorded, and the value read. */
  datatype Read = Read(el: Element, value: Value)

  /** `getAttribute`. */
  function Attribute(el: Element, k: string): (r: Option<string>)
    ensures r.Some? <==> k in el.attrs
  {
    if k in el.attrs then Some(el.attrs[k]) else None
  }

  /** The value of a class field before the decorators replace it:
      `this[propName]`, undefined when the class does not initialise it. */
  function FieldValue(fields: map<string, Value>, name: string): Value {
    if name in fields then fields[name] else Undef
  }

  /** The `Props` entry built for one `PropDefs` entry. */
  function SlotOf(def: PropDef, fields: map<string, Value>): Slot {
    Slot(def.propName, def.decl.typ, def.decl.converter, FieldValue(fields, def.propName))
  }

  /** The `Props` row: one slot per declared attribute, in declaration order. */
  function Slots(defs: OMap<string, PropDef>, fields: map<string, Value>): (r: OMap<string, Slot>)
    ensures Keys(r) == Keys(defs)
    ensures forall i :: 0 <= i < |r| ==> r[i].value == SlotOf(defs[i].value, fields)
  {
    if |defs| == 0 then []
    else [Entry(defs[0].key, SlotOf(defs[0].value, fields))] + Slots(defs[1..], fields)
  }

  /** One `WatcherCreated` effect per user watcher, in declaration order. */
  function WatchersCreated(ws: OMap<string, WatchDef>): (r: seq<Effect>)
    ensures |r| == |ws|
    ensures forall i :: 0 <= i < |r| ==> r[i] == WatcherCreated(ws[i].value.path)
  {
    if |ws| == 0 then [] else [WatcherCreated(ws[0].value.path)] + WatchersCreated(ws[1..])
  }

  /** The constructor: each registered state becomes a slot holding the
      field's initial value, each declared property becomes a `Props` entry
      whose default is the field's initial value, and each user watcher is
      created. The shadow root and its style sheet are not modelled. */
  function Construct(reg: Registry, cls: ClassId, hooks: Hooks, fields: map<string, Value>, attrs: map<string, string>): (el: Element)
    ensures el.defs == Row(reg.props, cls)
    ensures Keys(el.props) == Keys(el.defs)
    ensures forall i :: 0 <= i < |el.props| ==>
      el.props[i].value.propName == el.defs[i].value.propName
      && el.props[i].value.typ == el.defs[i].value.decl.typ
      && el.props[i].value.converter == el.defs[i].value.decl.converter
      && el.props[i].value.default == FieldValue(fields, el.defs[i].value.propName)
    ensures forall p :: p in el.states <==> p in Keys(Row(reg.states, cls))
    ensures forall p :: p in el.states ==> el.states[p] == FieldValue(fields, p)
    ensures el.attrs == attrs && el.queue == [] && el.oldVals == map[] && el.controllers == []
    ensures el.watcher == NoWatcher && !el.connected
    ensures |el.trace| == |Row(reg.watchers, cls)|
    ensures forall i :: 0 <= i < |el.trace| ==> el.trace[i] == WatcherCreated(Row(reg.watchers, cls)[i].value.path)
  {
    var defs := Row(reg.props, cls);
    Element(
      defs, hooks, attrs,
      Slots(defs, fields),
      map p | p in Keys(Row(reg.states, cls)) :: FieldValue(fields, p),
      [], [], map[], NoWatcher, false,
      WatchersCreated(Row(reg.watchers, cls)))
  }

  /** The instance's slots match its class's declarations and keys are
      distinct: what construction establishes (`ConstructValid`) and the
      lifecycle transitions keep (`Lifecycle.TransitionsKeepValid`). */
  ghost predicate Valid(el: Element) {
    && Keys(el.props) == Keys(el.defs)
    && Distinct(el.props)
    && Distinct(el.defs)
    && Distinct(el.controllers)
  }

  /** A valid registry constructs a valid element. */
  lemma ConstructValid(reg: Registry, cls: ClassId, hooks: Hooks, fields: map<string, Value>, attrs: map<string, string>)
    requires ValidRegistry(reg)
    ensures Valid(Construct(reg, cls, hooks, fields, attrs))
  {
    var el := Construct(reg, cls, hooks, fields, attrs);
    assert Distinct(el.defs);
    forall i, j | 0 <= i < j < |el.props|
      ensures el.props[i].key != el.props[j].key
    {
      assert Keys(el.props)[i] == el.defs[i].key && Keys(el.props)[j] == el.defs[j].key;
    }
  }
}

=== FILE: lifecycle.dfy ===
/** The element's lifecycle (index.ts:437-443, 563-631): connection,
    disconnection, and the attribute-change callback with its correction
    for boolean attributes that receive the text "false". */
module Lifecycle {
  import opened Wrappers
  import opened OrderedMap
  import opened Values
  import opened Conversion
  import opened Declarations
  import opened Instance
  import opened Reflection
  import opened UpdateQueue
  import opened Render
  import opened Sequences

  // ---------------------------------------------------------------- connection

  /** The attribute text the setter writes back when the current attribute
      is assigned to its own property. */
  function Normalize(slot: Slot, raw: Option<string>): Option<string> {
    Serialize(Convert(slot.converter, FromAttribute(raw), slot.typ))
  }

  /** `_updateProps` over the given entries: each declared property is
      assigned its own current attribute, in order. */
  function UpdatePropsFrom(el: Element, entries: OMap<string, PropDef>): (r: Element)
    ensures r == el.(attrs := r.attrs, trace := r.trace)
    ensures |r.trace| >= |el.trace| && r.trace[..|el.trace|] == el.trace
    decreases |entries|
  {
    if |entries| == 0 then el
    else
      var attr := entries[0].key;
      var next := if attr in Keys(el.props) then SetProperty(el, attr, FromAttribute(Attribute(el, attr))) else el;
      UpdatePropsFrom(next, entries[1..])
  }

  /** `_updateProps`: every observed property is assigned its own attribute. */
  function UpdateProps(el: Element): (r: Element)
    ensures r == el.(attrs := r.attrs, trace := r.trace)
    ensures |r.trace| >= |el.trace| && r.trace[..|el.trace|] == el.trace
  {
    UpdatePropsFrom(el, ObservedProps(el.defs))
  }

  /** Assigning attributes back to their properties records attribute writes and nothing else. */
  lemma {:induction false} UpdatePropsFromWritesOnly(el: Element, entries: OMap<string, PropDef>)
    ensures forall i :: |el.trace| <= i < |UpdatePropsFrom(el, entries).trace| ==>
      UpdatePropsFrom(el, entries).trace[i].SetAttr? || UpdatePropsFrom(el, entries).trace[i].RemoveAttr?
    decreases |entries|
  {
    if |entries| > 0 {
      var attr := entries[0].key;
      var next := if attr in Keys(el.props) then SetProperty(el, attr, FromAttribute(Attribute(el, attr))) else el;
      var t := UpdatePropsFrom(el, entries).trace;
      assert t == UpdatePropsFrom(next, entries[1..]).trace;
      UpdatePropsFromWritesOnly(next, entries[1..]);
      assert t[..|next.trace|] == next.trace;
      assert forall i :: |el.trace| <= i < |next.trace| ==> t[i] == next.trace[i];
    }
  }

  /** Attributes that are not among the entries are left alone. */
  lemma {:induction false} UpdatePropsFromUntouched(el: Element, entries: OMap<string, PropDef>, k: string)
    requires k !in Keys(entries)
    ensures Attribute(UpdatePropsFrom(el, entries), k) == Attribute(el, k)
    decreases |entries|
  {
    if |entries| > 0 {
      var attr := entries[0].key;
      var next := if attr in Keys(el.props) then SetProperty(el, attr, FromAttribute(Attribute(el, attr))) else el;
      assert k != attr;
      UpdatePropsFromUntouched(next, entries[1..], k);
    }
  }

  /** With distinct keys, every declared attribute among the entries ends up
      as the setter writes its own current text back. */
  lemma {:induction false} UpdatePropsFromNormalizes(el: Element, entries: OMap<string, PropDef>, k: string)
    requires Distinct(entries)
    requires k in Keys(entries) && k in Keys(el.props)
    ensures Attribute(UpdatePropsFrom(el, entries), k) == Normalize(SlotFor(el, k), Attribute(el, k))
    decreases |entries|
  {
    var attr := entries[0].key;
    var next := if attr in Keys(el.props) then SetProperty(el, attr, FromAttribute(Attribute(el, attr))) else el;
    assert next.props == el.props;
    if k == attr {
      assert k !in Keys(entries[1..]);
      UpdatePropsFromUntouched(next, entries[1..], k);
    } else {
      assert Attribute(next, k) == Attribute(el, k);
      UpdatePropsFromNormalizes(next, entries[1..], k);
    }
  }

  /** `connectedCallback`: push the attributes into the properties, tell the
      controllers, then make sure the render watcher exists. */
  function ConnectedCallback(el: Element, view: Value): (r: Element)
    ensures r.connected && r.watcher.Watching?
    ensures r.attrs == UpdateProps(el).attrs
    ensures r == el.(attrs := r.attrs, trace := r.trace, watcher := r.watcher, connected := true)
    ensures |r.trace| >= |el.trace| && r.trace[..|el.trace|] == el.trace
  {
    var n := Connecting(el);
    assert n.trace[..|el.trace|] == el.trace;
    assert n.watcher.NoWatcher? ==>
      var t := RenderCallback(n.(watcher := Watching(true)), view).trace;
      t[..|el.trace|] == el.trace
    by {
      if n.watcher.NoWatcher? {
        PrefixOfPrefix(RenderCallback(n.(watcher := Watching(true)), view).trace, n.trace, el.trace);
      }
    }
    GetOrInitRenderWatcher(n, view)
  }

  /** The element once its attributes are written back and its controllers
      are told, before the render watcher is consulted. */
  function Connecting(el: Element): (r: Element)
    ensures r == el.(attrs := r.attrs, trace := r.trace, connected := true)
    ensures r.attrs == UpdateProps(el).attrs
    ensures r.trace == el.trace + ConnectPrelude(el)
  {
    UpdateProps(el).(trace := el.trace + ConnectPrelude(el), connected := true)
  }

  /** The effects of connecting before the render watcher is consulted:
      the attribute write-backs, then `hostConnected` on each controller. */
  function ConnectPrelude(el: Element): seq<Effect> {
    UpdateProps(el).trace[|el.trace|..] + ControllerCalls(el.controllers, HostConnected)
  }

  /** The write-back part of connecting holds attribute writes only. */
  lemma WriteBacksOnly(el: Element)
    ensures var writes := UpdateProps(el).trace[|el.trace|..];
      forall i :: 0 <= i < |writes| ==> writes[i].SetAttr? || writes[i].RemoveAttr?
  {
    var obs := ObservedProps(el.defs);
    var t := UpdatePropsFrom(el, obs).trace;
    assert UpdateProps(el).trace == t;
    UpdatePropsFromWritesOnly(el, obs);
    assert forall i :: |el.trace| <= i < |t| ==> t[i].SetAttr? || t[i].RemoveAttr?;
    var writes := t[|el.trace|..];
    forall i | 0 <= i < |writes|
      ensures writes[i].SetAttr? || writes[i].RemoveAttr?
    {
      var k := |el.trace| + i;
      assert |el.trace| <= k < |t|;
      assert t[k].SetAttr? || t[k].RemoveAttr?;
      assert writes[i] == t[k];
    }
  }

  lemma ConnectPreludeMountsNothing(el: Element)
    ensures forall e :: e in ConnectPrelude(el) ==> !e.Patch? && e != DidMount && !e.DidUpdate?
    ensures Occurrences(ConnectPrelude(el), DidMount) == 0
  {
    var writes := UpdateProps(el).trace[|el.trace|..];
    var calls := ControllerCalls(el.controllers, HostConnected);
    WriteBacksOnly(el);
    var p := writes + calls;
    assert ConnectPrelude(el) == p;
    assert forall i :: 0 <= i < |p| ==> p[i].SetAttr? || p[i].RemoveAttr? || p[i].ControllerCall? by {
      forall i | 0 <= i < |p|
        ensures p[i].SetAttr? || p[i].RemoveAttr? || p[i].ControllerCall?
      {
        if i < |writes| {
          assert p[i] == writes[i];
        } else {
          assert p[i] == calls[i - |writes|];
        }
      }
    }
    OccurrencesAbsent(p, DidMount);
  }

  /** The first connection runs, in order: the attribute write-backs, then
      `hostConnected` on the controllers that define it (in registration
      order), then the render (the patch of a truthy tree, then
      `hostMounted` on the controllers that define it), and the mount
      callback last (when defined). No other controller callback runs. */
  lemma FirstConnectOrder(el: Element, view: Value)
    requires el.watcher == NoWatcher
    ensures var r := ConnectedCallback(el, view);
      var writes := UpdateProps(el).trace[|el.trace|..];
      && r.trace == el.trace + (writes + ControllerCalls(el.controllers, HostConnected)
           + RenderEffects(view) + ControllerCalls(el.controllers, HostMounted)
           + (if el.hooks.didMount then [DidMount] else []))
      && (forall i :: 0 <= i < |writes| ==> writes[i].SetAttr? || writes[i].RemoveAttr?)
      && (forall id: ControllerId, h: Hook :: ControllerCall(id, h) in r.trace[|el.trace|..] <==>
            (h == HostConnected || h == HostMounted) && exists hs :: Entry(id, hs) in el.controllers && h in hs)
  {
    var r := ConnectedCallback(el, view);
    var writes := UpdateProps(el).trace[|el.trace|..];
    var added := writes + ControllerCalls(el.controllers, HostConnected)
      + RenderEffects(view) + ControllerCalls(el.controllers, HostMounted)
      + (if el.hooks.didMount then [DidMount] else []);
    FirstConnectTrace(el, view);
    assert r.trace == el.trace + added;
    WriteBacksOnly(el);
    SliceAfter(el.trace, added);
    assert r.trace[|el.trace|..] == added;
    FirstConnectCalls(writes, ControllerCalls(el.controllers, HostConnected), RenderEffects(view),
      ControllerCalls(el.controllers, HostMounted), if el.hooks.didMount then [DidMount] else [], el.controllers);
  }

  /** The trace of a first connection, part by part. */
  lemma FirstConnectTrace(el: Element, view: Value)
    requires el.watcher == NoWatcher
    ensures ConnectedCallback(el, view).trace == el.trace + (UpdateProps(el).trace[|el.trace|..]
      + ControllerCalls(el.controllers, HostConnected) + RenderEffects(view) + ControllerCalls(el.controllers, HostMounted)
      + (if el.hooks.didMount then [DidMount] else []))
  {
    var n := Connecting(el);
    var first := n.(watcher := Watching(true));
    var writes := UpdateProps(el).trace[|el.trace|..];
    var connected := ControllerCalls(el.controllers, HostConnected);
    var patch := RenderEffects(view);
    var mounted := ControllerCalls(el.controllers, HostMounted);
    var tail := if el.hooks.didMount then [DidMount] else [];
    assert first.trace == el.trace + (writes + connected);
    assert ConnectedCallback(el, view) == RenderCallback(first, view);
    RenderTrace(first, view);
    assert RenderPrelude(first, view) == patch + mounted;
    assert RenderTail(first) == tail;
    Regroup(el.trace, writes, connected, patch, mounted, tail);
  }

  /** The controller calls among the effects of a first connection. */
  lemma FirstConnectCalls(writes: seq<Effect>, connected: seq<Effect>, patch: seq<Effect>, mounted: seq<Effect>, tail: seq<Effect>,
                          cs: OMap<ControllerId, set<Hook>>)
    requires forall i :: 0 <= i < |writes| ==> writes[i].SetAttr? || writes[i].RemoveAttr?
    requires connected == ControllerCalls(cs, HostConnected) && mounted == ControllerCalls(cs, HostMounted)
    requires forall e :: e in patch ==> e.Patch?
    requires forall e :: e in tail ==> e == DidMount
    ensures forall id: ControllerId, h: Hook :: ControllerCall(id, h) in writes + connected + patch + mounted + tail <==>
      (h == HostConnected || h == HostMounted) && exists hs :: Entry(id, hs) in cs && h in hs
  {
    forall id: ControllerId, h: Hook
      ensures ControllerCall(id, h) in writes + connected + patch + mounted + tail <==>
        (h == HostConnected || h == HostMounted) && exists hs :: Entry(id, hs) in cs && h in hs
    {
      var c := ControllerCall(id, h);
      assert c !in writes;
      assert c in writes + connected + patch + mounted + tail <==> c in connected || c in mounted;
    }
  }

  /** The first connection writes the attributes back, tells the controllers,
      renders, and ends with the mount callback (if defined); the queue is
      not flushed. */
  lemma FirstConnectMounts(el: Element, view: Value)
    requires el.watcher == NoWatcher
    ensures var r := ConnectedCallback(el, view);
      && r.watcher == Watching(false)
      && r.queue == el.queue
      && r.trace[..|el.trace|] == el.trace
      && Occurrences(r.trace, DidMount) == Occurrences(el.trace, DidMount) + (if el.hooks.didMount then 1 else 0)
      && (el.hooks.didMount ==> r.trace[|r.trace| - 1] == DidMount)
  {
    var n := Connecting(el);
    var first := n.(watcher := Watching(true));
    assert ConnectedCallback(el, view) == RenderCallback(first, view);
    FirstRenderMounts(first, view);
    ConnectingMountsNothing(el);
    PrefixOfPrefix(RenderCallback(first, view).trace, n.trace, el.trace);
  }

  /** Connecting keeps the earlier trace and adds no mount callback. */
  lemma ConnectingMountsNothing(el: Element)
    ensures Connecting(el).trace[..|el.trace|] == el.trace
    ensures Occurrences(Connecting(el).trace, DidMount) == Occurrences(el.trace, DidMount)
  {
    ConnectPreludeMountsNothing(el);
    OccurrencesAppend(el.trace, ConnectPrelude(el), DidMount);
  }

  /** Connecting an element that already has its render watcher does not
      run the render callback itself and fires no mount callback: only
      attribute write-backs and controller callbacks happen. */
  lemma ReconnectDoesNotRender(el: Element, view: Value)
    requires el.watcher.Watching?
    ensures var r := ConnectedCallback(el, view);
      && r.watcher == el.watcher
      && r.queue == el.queue
      && r.trace == el.trace + ConnectPrelude(el)
      && forall e :: e in r.trace[|el.trace|..] ==> !e.Patch? && e != DidMount && !e.DidUpdate?
  {
    var r := ConnectedCallback(el, view);
    assert r == Connecting(el);
    SliceAfter(el.trace, ConnectPrelude(el));
    ConnectPreludeMountsNothing(el);
  }

  /** Writing an attribute back through its property a second time changes
      nothing, for every converter of the library (a custom converter may
      not have this property). */
  lemma NormalizeIdempotent(slot: Slot, raw: Option<string>)
    requires !slot.converter.CustomConverter?
    ensures Normalize(slot, Normalize(slot, raw)) == Normalize(slot, raw)
  {
    if slot.converter == DefaultConverter && slot.typ == NumberType && raw.Some? && raw.value != "" {
      var v := ToNumber(Str(raw.value));
      if v.Num? {
        ToNumberOfFormat(v.n);
      }
    }
  }

  /** Writing back twice leaves any one attribute as writing back once does. */
  lemma UpdatePropsKeyIdempotent(el: Element, k: string)
    requires Valid(el)
    requires forall i :: 0 <= i < |el.props| ==> !el.props[i].value.converter.CustomConverter?
    ensures Attribute(UpdateProps(UpdateProps(el)), k) == Attribute(UpdateProps(el), k)
  {
    var obs := ObservedProps(el.defs);
    var e1 := UpdateProps(el);
    assert e1.defs == el.defs && e1.props == el.props;
    if k in Keys(obs) {
      assert k in Keys(el.defs);
      var slot := SlotFor(el, k);
      var i :| 0 <= i < |el.props| && el.props[i] == Entry(k, slot);
      UpdatePropsFromNormalizes(el, obs, k);
      UpdatePropsFromNormalizes(e1, obs, k);
      NormalizeIdempotent(slot, Attribute(el, k));
    } else {
      UpdatePropsFromUntouched(e1, obs, k);
    }
  }

  /** Writing the attributes back a second time leaves the attributes of writing them back once. */
  lemma UpdatePropsIdempotent(el: Element)
    requires Valid(el)
    requires forall i :: 0 <= i < |el.props| ==> !el.props[i].value.converter.CustomConverter?
    ensures UpdateProps(UpdateProps(el)).attrs == UpdateProps(el).attrs
  {
    var e1 := UpdateProps(el);
    var e2 := UpdateProps(e1);
    forall k
      ensures Attribute(e2, k) == Attribute(e1, k)
    {
      UpdatePropsKeyIdempotent(el, k);
    }
    AttributesDetermineStore(e2, e1);
  }

  /** Writing the attributes back depends only on the attributes and the
      property slots, not on the trace, the watcher or the connection flag. */
  lemma {:induction false} UpdatePropsFromSameStore(a: Element, b: Element, entries: OMap<string, PropDef>)
    requires a.attrs == b.attrs && a.props == b.props
    ensures UpdatePropsFrom(a, entries).attrs == UpdatePropsFrom(b, entries).attrs
    decreases |entries|
  {
    if |entries| > 0 {
      var attr := entries[0].key;
      var na := if attr in Keys(a.props) then SetProperty(a, attr, FromAttribute(Attribute(a, attr))) else a;
      var nb := if attr in Keys(b.props) then SetProperty(b, attr, FromAttribute(Attribute(b, attr))) else b;
      assert na.attrs == nb.attrs && na.props == nb.props;
      UpdatePropsFromSameStore(na, nb, entries[1..]);
    }
  }

  /** A reconnect (connect, disconnect, connect again) leaves the attributes
      the first connection wrote back, whatever is rendered in between. */
  lemma ReconnectWritesSameAttributes(el: Element, v1: Value, v2: Value)
    requires Valid(el)
    requires forall i :: 0 <= i < |el.props| ==> !el.props[i].value.converter.CustomConverter?
    ensures ConnectedCallback(DisconnectedCallback(ConnectedCallback(el, v1)), v2).attrs == ConnectedCallback(el, v1).attrs
  {
    var c1 := ConnectedCallback(el, v1);
    var d := DisconnectedCallback(c1);
    var e1 := UpdateProps(el);
    assert d.attrs == e1.attrs && d.props == e1.props && d.defs == e1.defs;
    UpdatePropsFromSameStore(d, e1, ObservedProps(el.defs));
    UpdatePropsIdempotent(el);
  }

  /** The connection, disconnection, attribute and controller transitions
      keep the instance's slots matched to its declarations and every key
      distinct. */
  lemma TransitionsKeepValid(el: Element, view: Value, attr: string, oldVal: Option<string>, newVal: Option<string>, id: ControllerId, hs: set<Hook>)
    requires Valid(el)
    ensures Valid(ConnectedCallback(el, view))
    ensures Valid(DisconnectedCallback(el))
    ensures Valid(AttributeChanged(el, attr, oldVal, newVal))
    ensures Valid(AddController(el, id, hs))
    ensures Valid(RemoveController(el, id))
  {
  }

  /** Two elements that agree on every `getAttribute` have the same attribute store. */
  lemma AttributesDetermineStore(a: Element, b: Element)
    requires forall k :: Attribute(a, k) == Attribute(b, k)
    ensures a.attrs == b.attrs
  {
    assert forall k :: k in a.attrs <==> Attribute(a, k).Some?;
    assert a.attrs.Keys == b.attrs.Keys;
  }

  // ---------------------------------------------------------------- disconnection

  /** `disconnectedCallback`. The render watcher, the queue and the
      attributes are left as they are. */
  function DisconnectedCallback(el: Element): (r: Element)
    ensures r == el.(trace := r.trace, connected := false)
    ensures |r.trace| > |el.trace|
  {
    el.(trace := el.trace + DisconnectEffects(el), connected := false)
  }

  function DisconnectEffects(el: Element): seq<Effect> {
    (if el.hooks.willUnmount then [WillUnmount] else []) + [ListenersRemoved]
      + ControllerCalls(el.controllers, HostDisconnected) + [Patch(Null)]
  }

  /** Disconnection runs the unmount callback (if defined), then unbinds
      every listener, then tells every controller that defines
      `hostDisconnected` and nothing else, and clears the rendered tree
      last; it fires no mount or update callback. */
  lemma DisconnectOrder(el: Element)
    ensures var r := DisconnectedCallback(el);
      var u := if el.hooks.willUnmount then 1 else 0;
      && r.trace[..|el.trace|] == el.trace
      && (el.hooks.willUnmount ==> r.trace[|el.trace|] == WillUnmount)
      && r.trace[|el.trace| + u] == ListenersRemoved
      && (forall i :: |el.trace| + u < i < |r.trace| - 1 ==> r.trace[i].ControllerCall? && r.trace[i].hook == HostDisconnected)
      && r.trace[|r.trace| - 1] == Patch(Null)
      && (forall e :: e in r.trace[|el.trace|..] ==> e != DidMount && !e.DidUpdate?)
      && (forall id: ControllerId :: ControllerCall(id, HostDisconnected) in r.trace[|el.trace|..]
            <==> exists hs :: Entry(id, hs) in el.controllers && HostDisconnected in hs)
  {
    var r := DisconnectedCallback(el);
    var a := DisconnectEffects(el);
    var n := |el.trace|;
    assert r.trace == el.trace + a;
    SliceAfter(el.trace, a);
    DisconnectEffectsShape(el);
    forall i | 0 <= i < |a|
      ensures r.trace[n + i] == a[i]
    {
    }
  }

  /** The effects disconnection adds, on their own. */
  lemma DisconnectEffectsShape(el: Element)
    ensures var a := DisconnectEffects(el);
      var u := if el.hooks.willUnmount then 1 else 0;
      && |a| >= u + 2
      && (el.hooks.willUnmount ==> a[0] == WillUnmount)
      && a[u] == ListenersRemoved
      && (forall i :: u < i < |a| - 1 ==> a[i].ControllerCall? && a[i].hook == HostDisconnected)
      && a[|a| - 1] == Patch(Null)
      && (forall e :: e in a ==> e != DidMount && !e.DidUpdate?)
      && (forall id: ControllerId :: ControllerCall(id, HostDisconnected) in a
            <==> exists hs :: Entry(id, hs) in el.controllers && HostDisconnected in hs)
  {
    var u := if el.hooks.willUnmount then 1 else 0;
    var calls := ControllerCalls(el.controllers, HostDisconnected);
    var head := (if el.hooks.willUnmount then [WillUnmount] else []) + [ListenersRemoved];
    var a := DisconnectEffects(el);
    assert a == head + calls + [Patch(Null)];
    assert |head| == u + 1;
    forall i | u < i < |a| - 1
      ensures a[i].ControllerCall? && a[i].hook == HostDisconnected
    {
      assert a[i] == calls[i - u - 1];
    }
    assert forall id: ControllerId :: ControllerCall(id, HostDisconnected) in a <==> ControllerCall(id, HostDisconnected) in calls;
  }

  // ---------------------------------------------------------------- attribute changes

  /** The previous value an attribute-change callback reports, and the
      stash left behind. `stashWhenPresent` selects between the source as
      written, which uses the stashed value only when it is truthy, and the
      corrected rule, which uses it whenever one was stashed. */
  function ResolvePrevious(oldVals: map<string, Option<string>>, name: string, oldVal: Option<string>, stashWhenPresent: bool): (r: (Option<string>, map<string, Option<string>>))
  {
    if name in oldVals && (stashWhenPresent || Truthy(FromAttribute(oldVals[name]))) then
      (oldVals[name], oldVals - {name})
    else
      (oldVal, oldVals)
  }

  /** Whether a change is the "false" correction: a boolean attribute whose
      newVal text is "false" and differs from the oldVal. */
  predicate IsFalseCorrection(el: Element, attr: string, oldVal: Option<string>, newVal: Option<string>) {
    newVal != oldVal && IsBooleanProperty(el.defs, attr) && newVal == Some("false")
  }

  /** `attributeChangedCallback`, parameterised by the stash rule. */
  function AttributeChangedWith(el: Element, attr: string, oldVal: Option<string>, newVal: Option<string>, stashWhenPresent: bool): (r: Element)
  {
    if attr !in Keys(el.props) then el
    else
      var name := SlotFor(el, attr).propName;
      if IsFalseCorrection(el, attr, oldVal, newVal) then
        SetProperty(Stashed(el, name, oldVal), attr, Str("false"))
      else
        var notified := el.(trace := el.trace + [Notify(PropDep(attr))]);
        if !el.hooks.didUpdate then notified
        else
          var read := GetProperty(notified, attr);
          var (resolved, rest) := ResolvePrevious(el.oldVals, name, oldVal, stashWhenPresent);
          QueueUpdated(read.el.(oldVals := rest), Update(name, ConvertAttrValue(SlotFor(el, attr), resolved), read.value))
  }

  /** The previous text kept for a later update callback, when the element
      defines one. */
  function Stashed(el: Element, name: string, oldVal: Option<string>): (r: Element)
    ensures r == el.(oldVals := r.oldVals)
  {
    if el.hooks.didUpdate then el.(oldVals := el.oldVals[name := oldVal]) else el
  }

  /** What one attribute-change callback does, under either stash rule: it
      touches only the attributes, the trace, the queue and the stash; the
      "false" correction is the setter's one attribute write; any other
      change notifies the cell, reads the property and queues one update. */
  lemma AttributeChangedWithShape(el: Element, attr: string, oldVal: Option<string>, newVal: Option<string>, stashWhenPresent: bool)
    ensures var r := AttributeChangedWith(el, attr, oldVal, newVal, stashWhenPresent);
      && r == el.(attrs := r.attrs, trace := r.trace, queue := r.queue, oldVals := r.oldVals)
      && (attr !in Keys(el.props) ==> r == el)
    ensures var r := AttributeChangedWith(el, attr, oldVal, newVal, stashWhenPresent);
      attr in Keys(el.props) && IsFalseCorrection(el, attr, oldVal, newVal) ==>
      var slot := SlotFor(el, attr);
      && r.queue == el.queue
      && r.trace == el.trace + [if attr in r.attrs then SetAttr(attr, r.attrs[attr]) else RemoveAttr(attr)]
      && Attribute(r, attr) == Serialize(Convert(slot.converter, Str("false"), slot.typ))
      && (forall k :: k != attr ==> Attribute(r, k) == Attribute(el, k))
      && r.oldVals == (if el.hooks.didUpdate then el.oldVals[slot.propName := oldVal] else el.oldVals)
    ensures var r := AttributeChangedWith(el, attr, oldVal, newVal, stashWhenPresent);
      attr in Keys(el.props) && !IsFalseCorrection(el, attr, oldVal, newVal) ==>
      var name := SlotFor(el, attr).propName;
      var (resolved, rest) := ResolvePrevious(el.oldVals, name, oldVal, stashWhenPresent);
      && r.attrs == el.attrs
      && r.trace == el.trace + [Notify(PropDep(attr))] + (if el.hooks.didUpdate then [Depend(PropDep(attr))] else [])
      && (!el.hooks.didUpdate ==> r.queue == el.queue && r.oldVals == el.oldVals)
      && (el.hooks.didUpdate ==>
          && r.queue == el.queue + [Update(name, ConvertAttrValue(SlotFor(el, attr), resolved), PropertyValue(el, attr))]
          && r.oldVals == rest)
  {
    if attr in Keys(el.props) && IsFalseCorrection(el, attr, oldVal, newVal) {
      var slot := SlotFor(el, attr);
      var stashed := Stashed(el, slot.propName, oldVal);
      assert SlotFor(stashed, attr) == slot;
      var r := SetProperty(stashed, attr, Str("false"));
      PrefixRest(r.trace, el.trace);
      assert r.trace[|el.trace|..] == [r.trace[|el.trace|]];
    }
  }

  /** `attributeChangedCallback` with the corrected stash rule. An unknown
      key is ignored; the "false" correction stashes the previous text and
      writes "false" through the setter without notifying or queueing; any
      other change notifies the property's cell once and queues one update
      whose previous value is the stashed text when there is one. Nothing
      but the attributes, the trace, the queue and the stash changes. */
  function AttributeChanged(el: Element, attr: string, oldVal: Option<string>, newVal: Option<string>): (r: Element)
    ensures r == el.(attrs := r.attrs, trace := r.trace, queue := r.queue, oldVals := r.oldVals)
    ensures attr !in Keys(el.props) ==> r == el
    ensures attr in Keys(el.props) && IsFalseCorrection(el, attr, oldVal, newVal) ==>
      var slot := SlotFor(el, attr);
      && r.queue == el.queue
      && r.trace == el.trace + [if attr in r.attrs then SetAttr(attr, r.attrs[attr]) else RemoveAttr(attr)]
      && Notify(PropDep(attr)) !in r.trace[|el.trace|..]
      && Attribute(r, attr) == Serialize(Convert(slot.converter, Str("false"), slot.typ))
      && (el.hooks.didUpdate ==> r.oldVals == el.oldVals[slot.propName := oldVal])
      && (!el.hooks.didUpdate ==> r.oldVals == el.oldVals)
      && (forall k :: k != attr ==> Attribute(r, k) == Attribute(el, k))
      && (slot.converter == DefaultConverter && slot.typ == BooleanType ==> Attribute(r, attr) == None)
    ensures attr in Keys(el.props) && !IsFalseCorrection(el, attr, oldVal, newVal) ==>
      var name := SlotFor(el, attr).propName;
      && r.attrs == el.attrs
      && r.trace == el.trace + [Notify(PropDep(attr))] + (if el.hooks.didUpdate then [Depend(PropDep(attr))] else [])
      && (!el.hooks.didUpdate ==> r.queue == el.queue && r.oldVals == el.oldVals)
      && (el.hooks.didUpdate ==>
          && r.queue == el.queue + [Update(name,
               ConvertAttrValue(SlotFor(el, attr), if name in el.oldVals then el.oldVals[name] else oldVal),
               PropertyValue(el, attr))]
          && r.oldVals == el.oldVals - {name})
  {
    AttributeChangedWithShape(el, attr, oldVal, newVal, true);
    AttributeChangedWith(el, attr, oldVal, newVal, true)
  }

  /** `attributeChangedCallback` exactly as written: the stashed previous
      text is used (and deleted) only when it is truthy, that is present and
      non-empty. It differs from the corrected rule only there. */
  function AttributeChangedAsWritten(el: Element, attr: string, oldVal: Option<string>, newVal: Option<string>): (r: Element)
    ensures r == el.(attrs := r.attrs, trace := r.trace, queue := r.queue, oldVals := r.oldVals)
    ensures attr !in Keys(el.props) ==> r == el
    ensures attr in Keys(el.props) && (IsFalseCorrection(el, attr, oldVal, newVal) || !el.hooks.didUpdate) ==>
      r == AttributeChanged(el, attr, oldVal, newVal)
    ensures attr in Keys(el.props) && !IsFalseCorrection(el, attr, oldVal, newVal) && el.hooks.didUpdate ==>
      var name := SlotFor(el, attr).propName;
      var useStash := name in el.oldVals && el.oldVals[name].Some? && el.oldVals[name].value != "";
      && r.attrs == el.attrs
      && r.trace == el.trace + [Notify(PropDep(attr)), Depend(PropDep(attr))]
      && r.queue == el.queue + [Update(name,
           ConvertAttrValue(SlotFor(el, attr), if useStash then el.oldVals[name] else oldVal),
           PropertyValue(el, attr))]
      && r.oldVals == (if useStash then el.oldVals - {name} else el.oldVals)
  {
    AttributeChangedWithShape(el, attr, oldVal, newVal, false);
    AttributeChangedWith(el, attr, oldVal, newVal, false)
  }

  /** The correction as the platform plays it out, with the corrected stash
      rule: a boolean property that was `true` (attribute present and empty)
      receives the text "false"; the callback removes the attribute through
      the setter without an update, and the follow-up callback for that
      removal queues exactly one update from `true` to `false`. */
  lemma FalseCorrectionReportsTrueToFalse(el: Element, attr: string)
    requires attr in Keys(el.props)
    requires IsBooleanProperty(el.defs, attr)
    requires SlotFor(el, attr).typ == BooleanType && SlotFor(el, attr).converter == DefaultConverter
    requires IsEmpty(SlotFor(el, attr).default) || SlotFor(el, attr).default == Bool(false)
    requires el.hooks.didUpdate
    requires Attribute(el, attr) == Some("false")
    ensures var el1 := AttributeChanged(el, attr, Some(""), Some("false"));
      && el1.queue == el.queue
      && Attribute(el1, attr) == None
      && PropertyValue(el1, attr) == Bool(false)
      && el1.trace[|el1.trace| - 1] == RemoveAttr(attr)
    ensures var el2 := AttributeChanged(AttributeChanged(el, attr, Some(""), Some("false")), attr, Some("false"), None);
      && el2.queue == el.queue + [Update(SlotFor(el, attr).propName, Bool(true), Bool(false))]
      && SlotFor(el, attr).propName !in el2.oldVals
  {
    var el1 := AttributeChanged(el, attr, Some(""), Some("false"));
    assert IsFalseCorrection(el, attr, Some(""), Some("false"));
    assert SlotFor(el1, attr) == SlotFor(el, attr);
    assert el1.defs == el.defs;
    assert Attribute(el1, attr) == None;
    assert el1.trace == el.trace + [RemoveAttr(attr)];
    assert el1.oldVals == el.oldVals[SlotFor(el, attr).propName := Some("")];
    assert !IsFalseCorrection(el1, attr, Some("false"), None);
  }

  /** The same scenario under the source as written: the stashed empty
      text is falsy and is ignored, so the update reports `false` to
      `false`, and the stash entry is left behind. */
  lemma FalseCorrectionAsWrittenReportsFalseToFalse(el: Element, attr: string)
    requires attr in Keys(el.props)
    requires IsBooleanProperty(el.defs, attr)
    requires SlotFor(el, attr).typ == BooleanType && SlotFor(el, attr).converter == DefaultConverter
    requires IsEmpty(SlotFor(el, attr).default) || SlotFor(el, attr).default == Bool(false)
    requires el.hooks.didUpdate
    requires Attribute(el, attr) == Some("false")
    ensures var el2 := AttributeChangedAsWritten(AttributeChangedAsWritten(el, attr, Some(""), Some("false")), attr, Some("false"), None);
      && el2.queue == el.queue + [Update(SlotFor(el, attr).propName, Bool(false), Bool(false))]
      && SlotFor(el, attr).propName in el2.oldVals
  {
    var el1 := AttributeChangedAsWritten(el, attr, Some(""), Some("false"));
    assert el1 == AttributeChanged(el, attr, Some(""), Some("false"));
    assert SlotFor(el1, attr) == SlotFor(el, attr);
    assert el1.defs == el.defs;
    assert !IsFalseCorrection(el1, attr, Some("false"), None);
  }
}

=== FILE: ordered_map.dfy ===
/** An insertion-ordered map with the behaviour of a JavaScript `Map`:
    iteration visits keys in the order they were first set, and setting
    an existing key replaces its value without moving it. */
module OrderedMap {
  import opened Wrappers

  datatype Entry<K, V> = Entry(key: K, value: V)

  type OMap<K, V> = seq<Entry<K, V>>

  /** The keys in iteration order. */
  function Keys<K, V>(m: OMap<K, V>): (ks: seq<K>)
    ensures |ks| == |m|
    ensures forall i :: 0 <= i < |m| ==> ks[i] == m[i].key
  {
    if |m| == 0 then [] else [m[0].key] + Keys(m[1..])
  }

  /** No key occurs twice. */
  ghost predicate Distinct<K, V>(m: OMap<K, V>) {
    forall i, j :: 0 <= i < j < |m| ==> m[i].key != m[j].key
  }

  /** `Map.prototype.get`: the value stored under `k`, if any. */
  function Get<K(==,!new), V(!new)>(m: OMap<K, V>, k: K): (r: Option<V>)
    ensures r.None? <==> k !in Keys(m)
    ensures r.Some? ==> Entry(k, r.value) in m
  {
    if |m| == 0 then None
    else if m[0].key == k then Some(m[0].value)
    else Get(m[1..], k)
  }

  /** `Map.prototype.set`: replaces the value of an existing key in place,
      or appends a new entry at the end. */
  function Put<K(==,!new), V(!new)>(m: OMap<K, V>, k: K, v: V): (r: OMap<K, V>)
    ensures Keys(r) == if k in Keys(m) then Keys(m) else Keys(m) + [k]
    ensures Get(r, k) == Some(v)
    ensures forall k' :: k' != k ==> Get(r, k') == Get(m, k')
  {
    if k in Keys(m) then
      var r := Replace(m, k, v);
      ReplaceGets(m, k, v);
      assert Keys(r) == Keys(m);
      r
    else
      var r := m + [Entry(k, v)];
      AppendGets(m, k, v);
      assert Keys(r) == Keys(m) + [k];
      r
  }

  /** Replaces the value stored under `k` in place; the keys stay where they are. */
  function Replace<K(==,!new), V(!new)>(m: OMap<K, V>, k: K, v: V): (r: OMap<K, V>)
    ensures |r| == |m|
    ensures forall i :: 0 <= i < |m| ==> r[i].key == m[i].key
  {
    if |m| == 0 then []
    else if m[0].key == k then [Entry(k, v)] + m[1..]
    else [m[0]] + Replace(m[1..], k, v)
  }

  /** Looking a key up after replacing a value. */
  lemma {:induction false} ReplaceGet<K(!new), V(!new)>(m: OMap<K, V>, k: K, v: V, k': K)
    ensures Get(Replace(m, k, v), k') == if k' == k && k in Keys(m) then Some(v) else Get(m, k')
  {
    if |m| > 0 {
      assert Keys(m) == [m[0].key] + Keys(m[1..]);
      if m[0].key != k {
        ReplaceGet(m[1..], k, v, k');
      }
    }
  }

  lemma ReplaceGets<K(!new), V(!new)>(m: OMap<K, V>, k: K, v: V)
    ensures forall k' :: Get(Replace(m, k, v), k') == if k' == k && k in Keys(m) then Some(v) else Get(m, k')
  {
    forall k' {
      ReplaceGet(m, k, v, k');
    }
  }

  /** The position of a key known to be present (its first, with distinct
      keys its only, occurrence). */
  function IndexOfKey<K(==), V>(m: OMap<K, V>, k: K): (i: nat)
    requires k in Keys(m)
    ensures i < |m| && m[i].key == k
  {
    if m[0].key == k then 0 else 1 + IndexOfKey(m[1..], k)
  }

  /** Looking a key up after appending an entry. */
  lemma {:induction false} GetAppend<K(!new), V(!new)>(m: OMap<K, V>, k: K, v: V, k': K)
    ensures Get(m + [Entry(k, v)], k') == if k' in Keys(m) then Get(m, k') else if k' == k then Some(v) else None
  {
    var e := Entry(k, v);
    if |m| > 0 {
      assert (m + [e])[0] == m[0];
      assert (m + [e])[1..] == m[1..] + [e];
      assert Keys(m) == [m[0].key] + Keys(m[1..]);
      GetAppend(m[1..], k, v, k');
    } else {
      assert m + [e] == [e];
    }
  }

  lemma AppendGets<K(!new), V(!new)>(m: OMap<K, V>, k: K, v: V)
    ensures forall k' :: Get(m + [Entry(k, v)], k') == if k' in Keys(m) then Get(m, k') else if k' == k then Some(v) else None
  {
    forall k' {
      GetAppend(m, k, v, k');
    }
  }

  /** `Map.prototype.delete` / `Set.prototype.delete`: drops the entry for `k`,
      keeping the order of the others. */
  function Remove<K(==,!new), V(!new)>(m: OMap<K, V>, k: K): (r: OMap<K, V>)
    ensures Get(r, k) == None
    ensures forall k' :: k' != k ==> Get(r, k') == Get(m, k')
    ensures forall e :: e in r <==> e in m && e.key != k
    ensures Distinct(m) ==> Distinct(r)
  {
    if |m| == 0 then []
    else if m[0].key == k then Remove(m[1..], k)
    else
      var rest := Remove(m[1..], k);
      assert Distinct(m) ==> forall j :: 0 <= j < |rest| ==> rest[j].key != m[0].key by {
        if Distinct(m) {
          forall j | 0 <= j < |rest|
            ensures rest[j].key != m[0].key
          {
            assert rest[j] in m[1..];
            var p :| 0 <= p < |m[1..]| && m[1..][p] == rest[j];
            assert m[p + 1] == rest[j];
          }
        }
      }
      [m[0]] + rest
  }

  /** Removing a key keeps the other keys in their order. */
  lemma {:induction false} RemoveKeepsOrder<K(!new), V(!new)>(m: OMap<K, V>, k: K, a: K, b: K)
    requires a in Keys(Remove(m, k)) && b in Keys(Remove(m, k))
    requires IndexOfKey(Remove(m, k), a) < IndexOfKey(Remove(m, k), b)
    ensures a in Keys(m) && b in Keys(m)
    ensures IndexOfKey(m, a) < IndexOfKey(m, b)
    decreases |m|
  {
    var r := Remove(m, k);
    var rest := Remove(m[1..], k);
    if m[0].key == k {
      assert r == rest;
      RemoveKeepsOrder(m[1..], k, a, b);
      assert a != k && b != k by { assert Get(r, k) == None; }
    } else {
      assert r == [m[0]] + rest;
      assert Keys(r) == [m[0].key] + Keys(rest);
      assert b != m[0].key;
      if a == m[0].key {
        KeyOfRest(m, k, b);
      } else {
        assert a in Keys(rest) && b in Keys(rest);
        RemoveKeepsOrder(m[1..], k, a, b);
      }
    }
  }

  /** A key after the head of a removal is a key after the head of the map. */
  lemma KeyOfRest<K(!new), V(!new)>(m: OMap<K, V>, k: K, b: K)
    requires |m| > 0 && m[0].key != k
    requires b in Keys(Remove(m[1..], k))
    ensures b in Keys(m[1..]) && b in Keys(m)
  {
    RemoveKeys(m[1..], k, b);
    assert Keys(m) == [m[0].key] + Keys(m[1..]);
  }

  /** Every key left by a removal was a key of the map. */
  lemma {:induction false} RemoveKeys<K(!new), V(!new)>(m: OMap<K, V>, k: K, b: K)
    requires b in Keys(Remove(m, k))
    ensures b in Keys(m) && b != k
    decreases |m|
  {
    if |m| > 0 {
      var rest := Remove(m[1..], k);
      assert Keys(m) == [m[0].key] + Keys(m[1..]);
      if m[0].key == k {
        RemoveKeys(m[1..], k, b);
      } else {
        assert Keys(Remove(m, k)) == [m[0].key] + Keys(rest);
        if b != m[0].key {
          RemoveKeys(m[1..], k, b);
        }
      }
    }
  }

  /** Setting a key keeps the keys distinct. */
  lemma PutDistinct<K(!new), V(!new)>(m: OMap<K, V>, k: K, v: V)
    ensures Distinct(m) ==> Distinct(Put(m, k, v))
  {
    var r := Put(m, k, v);
    if !Distinct(m) { return; }
    forall i, j | 0 <= i < j < |r|
      ensures r[i].key != r[j].key
    {
      assert Keys(r)[i] == r[i].key && Keys(r)[j] == r[j].key;
      if k !in Keys(m) && j == |m| {
        assert Keys(m)[i] == r[i].key;
      } else {
        assert Keys(m)[i] == r[i].key && Keys(m)[j] == r[j].key;
      }
    }
  }

  /** Appending a key that is not present keeps the keys distinct. */
  lemma AppendDistinct<K(!new), V(!new)>(m: OMap<K, V>, k: K, v: V)
    requires k !in Keys(m)
    ensures Distinct(m) ==> Distinct(m + [Entry(k, v)])
  {
    if Distinct(m) {
      var r := m + [Entry(k, v)];
      forall i, j | 0 <= i < j < |r|
        ensures r[i].key != r[j].key
      {
        assert Keys(m)[i] == m[i].key;
      }
    }
  }

  /** In a map with distinct keys, `Get` finds the entry at any position. */
  lemma GetAt<K(!new), V(!new)>(m: OMap<K, V>, i: nat)
    requires Distinct(m)
    requires i < |m|
    ensures Get(m, m[i].key) == Some(m[i].value)
  {
    if i > 0 {
      assert m[0].key != m[i].key;
      GetAt(m[1..], i - 1);
    }
  }
}

=== FILE: reflection.dfy ===
/** The accessor pair that reflects a declared property onto its attribute
    (index.ts:219-279): the getter re-reads and converts the attribute on
    every read, the setter converts the assigned value and serialises it
    into the attribute store. */
module Reflection {
  import opened Wrappers
  import opened OrderedMap
  import opened Values
  import opened Conversion
  import opened Instance

  /** `convertAttrValue`: an empty raw value yields the default captured at
      construction when that default is not empty, except that a boolean
      property reads the empty string as a present attribute; every other
      raw value goes through the converter. */
  function ConvertAttrValue(slot: Slot, raw: Option<string>): (r: Value)
    ensures raw.Some? && raw.value != "" ==> r == Convert(slot.converter, Str(raw.value), slot.typ)
    ensures raw.None? && !IsEmpty(slot.default) ==> r == slot.default
    ensures raw == Some("") && slot.typ != BooleanType && !IsEmpty(slot.default) ==> r == slot.default
    ensures raw == Some("") && slot.typ == BooleanType ==> r == Convert(slot.converter, Str(""), slot.typ)
    ensures IsEmpty(slot.default) ==> r == Convert(slot.converter, FromAttribute(raw), slot.typ)
  {
    var value := FromAttribute(raw);
    if IsEmpty(value) && (slot.typ != BooleanType || value != Str("")) && !IsEmpty(slot.default) then
      slot.default
    else
      Convert(slot.converter, value, slot.typ)
  }

  /** The `Props` entry of a declared attribute. */
  function SlotFor(el: Element, attr: string): Slot
    requires attr in Keys(el.props)
  {
    Get(el.props, attr).value
  }

  /** What the getter returns: the converted current attribute. */
  function PropertyValue(el: Element, attr: string): Value
    requires attr in Keys(el.props)
  {
    ConvertAttrValue(SlotFor(el, attr), Attribute(el, attr))
  }

  /** The property getter: reads the dependency cell, then converts the attribute. */
  function GetProperty(el: Element, attr: string): (r: Read)
    requires attr in Keys(el.props)
    ensures r.value == ConvertAttrValue(SlotFor(el, attr), Attribute(el, attr))
    ensures r.el == el.(trace := el.trace + [Depend(PropDep(attr))])
  {
    Read(el.(trace := el.trace + [Depend(PropDep(attr))]), PropertyValue(el, attr))
  }

  /** The attribute text the setter stores for a converted value, or `None`
      when it removes the attribute: `true` is stored as the empty string,
      another truthy value as its string form, a falsy value is removed. */
  function Serialize(val: Value): (r: Option<string>)
    ensures r.None? <==> !Truthy(val)
    ensures r == Some("") <==> val == Bool(true)
  {
    if !Truthy(val) then None
    else if val.Bool? then Some("")
    else Some(ToStr(val))
  }

  /** The property setter. Only the property's own attribute changes, and
      exactly one attribute write is recorded. */
  function SetProperty(el: Element, attr: string, x: Value): (r: Element)
    requires attr in Keys(el.props)
    ensures r == el.(attrs := r.attrs, trace := r.trace)
    ensures forall k :: k != attr ==> Attribute(r, k) == Attribute(el, k)
    ensures var val := Convert(SlotFor(el, attr).converter, x, SlotFor(el, attr).typ);
      && (Truthy(val) && val.Bool? ==> Attribute(r, attr) == Some(""))
      && (Truthy(val) && !val.Bool? ==> Attribute(r, attr) == Some(ToStr(val)))
      && (!Truthy(val) ==> Attribute(r, attr) == None)
    ensures |r.trace| == |el.trace| + 1 && r.trace[..|el.trace|] == el.trace
    ensures r.trace[|el.trace|] == (if attr in r.attrs then SetAttr(attr, r.attrs[attr]) else RemoveAttr(attr))
  {
    var slot := SlotFor(el, attr);
    match Serialize(Convert(slot.converter, x, slot.typ))
    case Some(text) => el.(attrs := el.attrs[attr := text], trace := el.trace + [SetAttr(attr, text)])
    case None => el.(attrs := el.attrs - {attr}, trace := el.trace + [RemoveAttr(attr)])
  }

  /** Assigning the same value twice leaves the attributes as one assignment does. */
  lemma SetPropertyIdempotent(el: Element, attr: string, x: Value)
    requires attr in Keys(el.props)
    ensures SetProperty(SetProperty(el, attr, x), attr, x).attrs == SetProperty(el, attr, x).attrs
  {
  }

  /** Boolean round trip: with the default converter and a default that is
      empty or `false`, reading after an assignment yields the assigned
      value's boolean conversion. */
  lemma BooleanRoundTrip(el: Element, attr: string, x: Value)
    requires attr in Keys(el.props)
    requires SlotFor(el, attr).typ == BooleanType && SlotFor(el, attr).converter == DefaultConverter
    requires IsEmpty(SlotFor(el, attr).default) || SlotFor(el, attr).default == Bool(false)
    ensures PropertyValue(SetProperty(el, attr, x), attr) == DefaultConvert(x, BooleanType)
  {
    var r := SetProperty(el, attr, x);
    assert SlotFor(r, attr) == SlotFor(el, attr);
  }

  /** Assigning `false` to a boolean property reads back `false` exactly
      when its default is empty or `false`; a truthy default hides it. */
  lemma BooleanFalseRoundTripIff(el: Element, attr: string)
    requires attr in Keys(el.props)
    requires SlotFor(el, attr).typ == BooleanType && SlotFor(el, attr).converter == DefaultConverter
    ensures PropertyValue(SetProperty(el, attr, Bool(false)), attr) == Bool(false)
        <==> IsEmpty(SlotFor(el, attr).default) || SlotFor(el, attr).default == Bool(false)
  {
    var r := SetProperty(el, attr, Bool(false));
    assert SlotFor(r, attr) == SlotFor(el, attr);
    assert Attribute(r, attr) == None;
  }

  /** Assigning `true` to a boolean property always reads back `true`. */
  lemma BooleanTrueRoundTrip(el: Element, attr: string)
    requires attr in Keys(el.props)
    requires SlotFor(el, attr).typ == BooleanType && SlotFor(el, attr).converter == DefaultConverter
    ensures PropertyValue(SetProperty(el, attr, Bool(true)), attr) == Bool(true)
  {
    var r := SetProperty(el, attr, Bool(true));
    assert SlotFor(r, attr) == SlotFor(el, attr);
    assert Attribute(r, attr) == Some("");
  }

  /** String round trip: a non-empty string reads back unchanged. */
  lemma StringRoundTrip(el: Element, attr: string, s: string)
    requires attr in Keys(el.props)
    requires SlotFor(el, attr).typ == StringType && SlotFor(el, attr).converter == DefaultConverter
    requires s != ""
    ensures PropertyValue(SetProperty(el, attr, Str(s)), attr) == Str(s)
  {
    var r := SetProperty(el, attr, Str(s));
    assert SlotFor(r, attr) == SlotFor(el, attr);
    assert Attribute(r, attr) == Some(s);
  }

  /** Number round trip: a non-zero integer is written as decimal text and
      reads back as the same number. */
  lemma NumberRoundTrip(el: Element, attr: string, n: int)
    requires attr in Keys(el.props)
    requires SlotFor(el, attr).typ == NumberType && SlotFor(el, attr).converter == DefaultConverter
    requires n != 0
    ensures PropertyValue(SetProperty(el, attr, Num(n)), attr) == Num(n)
  {
    var r := SetProperty(el, attr, Num(n));
    assert SlotFor(r, attr) == SlotFor(el, attr);
    assert Attribute(r, attr) == Some(Decimal.Format(n));
    NumberReadsDecimal(n);
  }

  /** Assigning `0` to a number property removes its attribute (the setter
      tests truthiness), so `0` reads back only when the default is `0`
      itself: otherwise the read gives the non-empty default, or the empty
      value the attribute store yields when the default is empty. */
  lemma ZeroRoundTripIff(el: Element, attr: string)
    requires attr in Keys(el.props)
    requires SlotFor(el, attr).typ == NumberType && SlotFor(el, attr).converter == DefaultConverter
    ensures Attribute(SetProperty(el, attr, Num(0)), attr) == None
    ensures PropertyValue(SetProperty(el, attr, Num(0)), attr) == Num(0) <==> SlotFor(el, attr).default == Num(0)
  {
    var r := SetProperty(el, attr, Num(0));
    assert SlotFor(r, attr) == SlotFor(el, attr);
    assert Attribute(r, attr) == None;
  }

  /** A removed attribute reads as its non-empty default, whatever the
      type (a number property declared with default 10 reads 10, a boolean
      property declared with default `true` reads `true`). */
  lemma RemovedReadsDefault(el: Element, attr: string)
    requires attr in Keys(el.props)
    requires attr !in el.attrs
    requires !IsEmpty(SlotFor(el, attr).default)
    ensures PropertyValue(el, attr) == SlotFor(el, attr).default
  {
  }

  /** A boolean attribute that is present with the empty value reads `true`,
      whatever the default. */
  lemma PresentBooleanReadsTrue(el: Element, attr: string)
    requires attr in Keys(el.props)
    requires SlotFor(el, attr).typ == BooleanType && SlotFor(el, attr).converter == DefaultConverter
    requires Attribute(el, attr) == Some("")
    ensures PropertyValue(el, attr) == Bool(true)
  {
  }
}

=== FILE: render.dfy ===
/** The render watcher and the reactive controllers (index.ts:420, 428-434,
    454-467, 534-561): the watcher's callback renders, tells the
    controllers, and then either marks the element mounted (first run) or
    flushes the deferred update callbacks (every later run). */
module Render {
  import opened Wrappers
  import opened OrderedMap
  import opened Values
  import opened Instance
  import opened UpdateQueue
  import opened Sequences

  /** How many times an effect occurs in a trace. */
  function Occurrences(t: seq<Effect>, e: Effect): nat {
    if |t| == 0 then 0 else (if t[0] == e then 1 else 0) + Occurrences(t[1..], e)
  }

  lemma {:induction false} OccurrencesAppend(a: seq<Effect>, b: seq<Effect>, e: Effect)
    ensures Occurrences(a + b, e) == Occurrences(a, e) + Occurrences(b, e)
  {
    if |a| > 0 {
      assert (a + b)[0] == a[0];
      assert (a + b)[1..] == a[1..] + b;
      OccurrencesAppend(a[1..], b, e);
    } else {
      assert a + b == b;
    }
  }

  lemma {:induction false} OccurrencesAbsent(t: seq<Effect>, e: Effect)
    requires forall i :: 0 <= i < |t| ==> t[i] != e
    ensures Occurrences(t, e) == 0
  {
    if |t| > 0 {
      OccurrencesAbsent(t[1..], e);
    }
  }

  // ---------------------------------------------------------------- controllers

  /** `_controllers?.forEach((c) => c[hook]?.())`: exactly the controllers
      that define the callback are called (`ControllerCallsInOrder` states
      that each is called once, in registration order). */
  function ControllerCalls(cs: OMap<ControllerId, set<Hook>>, hook: Hook): (r: seq<Effect>)
    ensures forall i :: 0 <= i < |r| ==> r[i].ControllerCall? && r[i].hook == hook
    ensures forall id: ControllerId :: ControllerCall(id, hook) in r <==> exists hs :: Entry(id, hs) in cs && hook in hs
  {
    CallsFromMembers(cs, hook);
    CallsFrom(cs, hook)
  }

  /** The iteration itself: one call per registered controller that
      defines the callback, front to back. */
  function CallsFrom(cs: OMap<ControllerId, set<Hook>>, hook: Hook): seq<Effect> {
    if |cs| == 0 then []
    else (if hook in cs[0].value then [ControllerCall(cs[0].key, hook)] else []) + CallsFrom(cs[1..], hook)
  }

  lemma {:induction false} CallsFromMembers(cs: OMap<ControllerId, set<Hook>>, hook: Hook)
    ensures forall i :: 0 <= i < |CallsFrom(cs, hook)| ==> CallsFrom(cs, hook)[i].ControllerCall? && CallsFrom(cs, hook)[i].hook == hook
    ensures forall id: ControllerId :: ControllerCall(id, hook) in CallsFrom(cs, hook) <==> exists hs :: Entry(id, hs) in cs && hook in hs
  {
    if |cs| > 0 {
      CallsFromMembers(cs[1..], hook);
      assert cs == [cs[0]] + cs[1..];
    }
  }

  /** The i-th call goes to a registered controller. */
  lemma {:induction false} CallsFromKey(cs: OMap<ControllerId, set<Hook>>, hook: Hook, i: nat)
    requires i < |CallsFrom(cs, hook)|
    ensures CallsFrom(cs, hook)[i].ControllerCall? && CallsFrom(cs, hook)[i].id in Keys(cs)
    decreases |cs|
  {
    var head := if hook in cs[0].value then [ControllerCall(cs[0].key, hook)] else [];
    var rest := CallsFrom(cs[1..], hook);
    assert CallsFrom(cs, hook) == head + rest;
    if i < |head| {
      assert Keys(cs)[0] == cs[0].key;
    } else {
      CallsFromKey(cs[1..], hook, i - |head|);
      var k := IndexOfKey(cs[1..], rest[i - |head|].id);
      assert Keys(cs)[k + 1] == cs[k + 1].key;
    }
  }

  /** Every call in `r` goes to a registered controller, and an earlier
      call to a controller registered earlier (so none is called twice). */
  ghost predicate InRegistrationOrder(cs: OMap<ControllerId, set<Hook>>, r: seq<Effect>) {
    forall i, j :: 0 <= i < j < |r| ==>
      && r[i].ControllerCall? && r[j].ControllerCall?
      && r[i].id in Keys(cs) && r[j].id in Keys(cs)
      && IndexOfKey(cs, r[i].id) < IndexOfKey(cs, r[j].id)
  }

  /** With distinct registrations, the controllers are called each once and
      in registration order. */
  lemma ControllerCallsInOrder(cs: OMap<ControllerId, set<Hook>>, hook: Hook)
    requires Distinct(cs)
    ensures InRegistrationOrder(cs, ControllerCalls(cs, hook))
    ensures forall i, j :: 0 <= i < j < |ControllerCalls(cs, hook)| ==> ControllerCalls(cs, hook)[i] != ControllerCalls(cs, hook)[j]
  {
    var r := ControllerCalls(cs, hook);
    assert r == CallsFrom(cs, hook);
    forall i, j | 0 <= i < j < |r|
      ensures r[i].ControllerCall? && r[j].ControllerCall?
      ensures r[i].id in Keys(cs) && r[j].id in Keys(cs)
      ensures IndexOfKey(cs, r[i].id) < IndexOfKey(cs, r[j].id)
    {
      CallsOrderPair(cs, hook, i, j);
    }
  }

  /** One pair of calls of `ControllerCallsInOrder`. */
  lemma {:induction false} CallsOrderPair(cs: OMap<ControllerId, set<Hook>>, hook: Hook, i: nat, j: nat)
    requires Distinct(cs)
    requires i < j < |CallsFrom(cs, hook)|
    ensures var r := CallsFrom(cs, hook);
      && r[i].ControllerCall? && r[j].ControllerCall?
      && r[i].id in Keys(cs) && r[j].id in Keys(cs)
      && IndexOfKey(cs, r[i].id) < IndexOfKey(cs, r[j].id)
    decreases |cs|
  {
    var r := CallsFrom(cs, hook);
    var head := if hook in cs[0].value then [ControllerCall(cs[0].key, hook)] else [];
    var rest := CallsFrom(cs[1..], hook);
    assert r == head + rest;
    assert Distinct(cs[1..]);
    CallsFromKey(cs, hook, i);
    CallsFromKey(cs, hook, j);
    var j' := j - |head|;
    assert r[j] == rest[j'];
    CallsFromKey(cs[1..], hook, j');
    var idj := rest[j'].id;
    LaterKeyIndex(cs, idj);
    if i < |head| {
      assert r[i].id == cs[0].key;
      assert IndexOfKey(cs, cs[0].key) == 0;
    } else {
      var i' := i - |head|;
      assert r[i] == rest[i'];
      CallsFromKey(cs[1..], hook, i');
      var idi := rest[i'].id;
      LaterKeyIndex(cs, idi);
      CallsOrderPair(cs[1..], hook, i', j');
      assert IndexOfKey(cs[1..], idi) < IndexOfKey(cs[1..], idj);
    }
  }

  /** With distinct keys, a key of the tail sits one further along in the whole map. */
  lemma LaterKeyIndex(cs: OMap<ControllerId, set<Hook>>, id: ControllerId)
    requires Distinct(cs) && |cs| > 0 && id in Keys(cs[1..])
    ensures id in Keys(cs) && IndexOfKey(cs, id) == 1 + IndexOfKey(cs[1..], id)
  {
    var k := IndexOfKey(cs[1..], id);
    assert cs[k + 1].key == id;
    assert cs[0].key != id;
    assert Keys(cs)[k + 1] == id;
  }

  /** `addController`: a controller is registered once, at the end of the
      iteration order, and is told about the connection at once when the
      element is connected. Adding a registered controller again keeps its
      place and its callbacks. */
  function AddController(el: Element, id: ControllerId, hs: set<Hook>): (r: Element)
    ensures Get(r.controllers, id) == if Get(el.controllers, id).Some? then Get(el.controllers, id) else Some(hs)
    ensures Get(el.controllers, id).Some? ==> r.controllers == el.controllers
    ensures Get(el.controllers, id).None? ==> r.controllers == el.controllers + [Entry(id, hs)]
    ensures forall c :: c != id ==> Get(r.controllers, c) == Get(el.controllers, c)
    ensures Distinct(el.controllers) ==> Distinct(r.controllers)
    ensures r.trace == el.trace + (if el.connected && HostConnected in Get(r.controllers, id).value then [ControllerCall(id, HostConnected)] else [])
    ensures r == el.(controllers := r.controllers, trace := r.trace)
  {
    var cs := if Get(el.controllers, id).Some? then el.controllers else AddEntry(el.controllers, id, hs);
    var calls := if el.connected && HostConnected in Get(cs, id).value then [ControllerCall(id, HostConnected)] else [];
    el.(controllers := cs, trace := el.trace + calls)
  }

  /** Registers a controller that is not yet present. */
  function AddEntry(cs: OMap<ControllerId, set<Hook>>, id: ControllerId, hs: set<Hook>): (r: OMap<ControllerId, set<Hook>>)
    requires Get(cs, id).None?
    ensures r == cs + [Entry(id, hs)]
    ensures Get(r, id) == Some(hs)
    ensures forall c :: c != id ==> Get(r, c) == Get(cs, c)
    ensures Distinct(cs) ==> Distinct(r)
  {
    AppendDistinct(cs, id, hs);
    GetAppend(cs, id, hs, id);
    assert forall c :: c != id ==> Get(cs + [Entry(id, hs)], c) == Get(cs, c) by {
      forall c | c != id
        ensures Get(cs + [Entry(id, hs)], c) == Get(cs, c)
      {
        GetAppend(cs, id, hs, c);
      }
    }
    cs + [Entry(id, hs)]
  }

  /** A controller added after the others is called after them, by every
      later lifecycle callback that it defines. */
  lemma AddedControllerCalledLast(el: Element, id: ControllerId, hs: set<Hook>, hook: Hook)
    requires Get(el.controllers, id).None?
    ensures ControllerCalls(AddController(el, id, hs).controllers, hook)
      == ControllerCalls(el.controllers, hook) + (if hook in hs then [ControllerCall(id, hook)] else [])
  {
    CallsFromAppend(el.controllers, Entry(id, hs), hook);
  }

  lemma {:induction false} CallsFromAppend(cs: OMap<ControllerId, set<Hook>>, e: Entry<ControllerId, set<Hook>>, hook: Hook)
    ensures CallsFrom(cs + [e], hook) == CallsFrom(cs, hook) + (if hook in e.value then [ControllerCall(e.key, hook)] else [])
  {
    var last := if hook in e.value then [ControllerCall(e.key, hook)] else [];
    if |cs| == 0 {
      assert (cs + [e])[1..] == [];
      assert CallsFrom(cs + [e], hook) == last + CallsFrom([], hook);
    } else {
      var head := if hook in cs[0].value then [ControllerCall(cs[0].key, hook)] else [];
      assert (cs + [e])[0] == cs[0];
      assert (cs + [e])[1..] == cs[1..] + [e];
      assert CallsFrom(cs + [e], hook) == head + CallsFrom(cs[1..] + [e], hook);
      CallsFromAppend(cs[1..], e, hook);
      assert CallsFrom(cs, hook) == head + CallsFrom(cs[1..], hook);
    }
  }

  /** `removeController`. */
  function RemoveController(el: Element, id: ControllerId): (r: Element)
    ensures Get(r.controllers, id) == None
    ensures forall c :: c != id ==> Get(r.controllers, c) == Get(el.controllers, c)
    ensures r == el.(controllers := r.controllers)
    ensures Distinct(el.controllers) ==> Distinct(r.controllers)
  {
    el.(controllers := Remove(el.controllers, id))
  }

  /** After a removal the remaining controllers are still called once
      each, in the order they were first registered. */
  lemma RemovedControllerKeepsOrder(el: Element, id: ControllerId, hook: Hook)
    requires Distinct(el.controllers)
    ensures InRegistrationOrder(el.controllers, ControllerCalls(RemoveController(el, id).controllers, hook))
    ensures var r := ControllerCalls(RemoveController(el, id).controllers, hook);
      forall i, j :: 0 <= i < j < |r| ==> r[i] != r[j]
  {
    var cs := RemoveController(el, id).controllers;
    var r := ControllerCalls(cs, hook);
    ControllerCallsInOrder(cs, hook);
    forall i, j | 0 <= i < j < |r|
      ensures r[i].ControllerCall? && r[j].ControllerCall?
      ensures r[i].id in Keys(el.controllers) && r[j].id in Keys(el.controllers)
      ensures IndexOfKey(el.controllers, r[i].id) < IndexOfKey(el.controllers, r[j].id)
    {
      assert InRegistrationOrder(cs, r);
      RemoveKeepsOrder(el.controllers, id, r[i].id, r[j].id);
    }
  }

  /** A removed controller takes part in no later lifecycle callback. */
  lemma RemovedControllerIsNotCalled(el: Element, id: ControllerId, hook: Hook)
    ensures ControllerCall(id, hook) !in ControllerCalls(RemoveController(el, id).controllers, hook)
  {
    var cs := RemoveController(el, id).controllers;
    assert forall hs :: Entry(id, hs) !in cs;
  }

  // ---------------------------------------------------------------- rendering

  /** `_render`: a truthy tree is patched into the shadow root; a falsy one is skipped. */
  function RenderEffects(view: Value): (r: seq<Effect>)
    ensures r == [] || r == [Patch(view)]
    ensures r != [] <==> Truthy(view)
  {
    if Truthy(view) then [Patch(view)] else []
  }

  /** The controller callback of a render run: `hostMounted` on the first, `hostUpdated` after. */
  function RenderHook(initRender: bool): Hook {
    if initRender then HostMounted else HostUpdated
  }

  /** The render watcher's callback, given the tree `render()` returns. It
      only appends to the trace; the first run keeps the queue and every
      later run empties it. */
  function RenderCallback(el: Element, view: Value): (r: Element)
    requires el.watcher.Watching?
    ensures r.watcher == Watching(false)
    ensures r == el.(watcher := r.watcher, queue := r.queue, trace := r.trace)
    ensures r.queue == if el.watcher.initRender then el.queue else []
    ensures |r.trace| >= |el.trace| && r.trace[..|el.trace|] == el.trace
  {
    var first := el.watcher.initRender;
    var rendered := el.(trace := el.trace + RenderEffects(view) + ControllerCalls(el.controllers, RenderHook(first)));
    if first then
      rendered.(watcher := Watching(false), trace := rendered.trace + (if el.hooks.didMount then [DidMount] else []))
    else
      FlushUpdatedQueue(rendered)
  }

  /** The effects of a render run before its mount or flush step. */
  function RenderPrelude(el: Element, view: Value): seq<Effect>
    requires el.watcher.Watching?
  {
    RenderEffects(view) + ControllerCalls(el.controllers, RenderHook(el.watcher.initRender))
  }

  lemma RenderPreludeMountsNothing(el: Element, view: Value)
    requires el.watcher.Watching?
    ensures Occurrences(RenderPrelude(el, view), DidMount) == 0
    ensures forall i :: 0 <= i < |RenderPrelude(el, view)| ==> !RenderPrelude(el, view)[i].DidUpdate?
  {
    OccurrencesAbsent(RenderPrelude(el, view), DidMount);
  }

  /** The effects a render run appends, in the order it appends them. */
  function RenderTail(el: Element): seq<Effect>
    requires el.watcher.Watching?
  {
    if el.watcher.initRender then (if el.hooks.didMount then [DidMount] else []) else DidUpdates(el.queue)
  }

  /** The trace a render run leaves: the prelude, then the mount callback
      on the first run or the queued update callbacks on later runs. */
  lemma RenderTrace(el: Element, view: Value)
    requires el.watcher.Watching?
    ensures RenderCallback(el, view).trace == el.trace + RenderPrelude(el, view)
      + RenderTail(el)
    ensures RenderCallback(el, view).queue == if el.watcher.initRender then el.queue else []
  {
    var prelude := RenderPrelude(el, view);
    var rendered := el.(trace := el.trace + RenderEffects(view) + ControllerCalls(el.controllers, RenderHook(el.watcher.initRender)));
    assert rendered.trace == el.trace + prelude;
    if el.watcher.initRender {
      assert RenderCallback(el, view).trace == rendered.trace + (if el.hooks.didMount then [DidMount] else []);
    } else {
      assert RenderCallback(el, view) == FlushUpdatedQueue(rendered);
    }
  }

  /** The first run renders, calls `hostMounted`, and then fires the mount
      callback (if defined) as its last effect; it runs no update callback
      and keeps the queue. */
  lemma FirstRenderMounts(el: Element, view: Value)
    requires el.watcher == Watching(true)
    ensures var r := RenderCallback(el, view);
      && r.queue == el.queue
      && r.trace[..|el.trace|] == el.trace
      && (Truthy(view) ==> r.trace[|el.trace|] == Patch(view))
      && Occurrences(r.trace, DidMount) == Occurrences(el.trace, DidMount) + (if el.hooks.didMount then 1 else 0)
      && (el.hooks.didMount ==> r.trace[|r.trace| - 1] == DidMount)
      && (forall e :: e in r.trace[|el.trace|..] ==> !e.DidUpdate?)
  {
    var prelude := RenderPrelude(el, view);
    RenderTrace(el, view);
    RenderPreludeMountsNothing(el, view);
    MountShape(el.trace, prelude, el.hooks.didMount);
    Parts(el.trace, prelude, RenderTail(el));
  }

  /** The shape of a first run's trace, whatever its prelude holds. */
  lemma MountShape(t0: seq<Effect>, prelude: seq<Effect>, didMount: bool)
    requires Occurrences(prelude, DidMount) == 0
    requires forall i :: 0 <= i < |prelude| ==> !prelude[i].DidUpdate?
    ensures var t := t0 + prelude + (if didMount then [DidMount] else []);
      && Occurrences(t, DidMount) == Occurrences(t0, DidMount) + (if didMount then 1 else 0)
      && (didMount ==> t[|t| - 1] == DidMount)
      && (forall e :: e in t[|t0|..] ==> !e.DidUpdate?)
  {
    var mounted := if didMount then [DidMount] else [];
    var t := t0 + prelude + mounted;
    assert t[|t0|..] == prelude + mounted;
    OccurrencesAppend(t0, prelude, DidMount);
    OccurrencesAppend(t0 + prelude, mounted, DidMount);
    assert Occurrences(mounted, DidMount) == (if didMount then 1 else 0) by {
      if didMount {
        assert mounted[1..] == [];
      }
    }
  }

  /** Every later run renders, calls `hostUpdated`, then runs every queued
      update callback in order as its last effects and empties the queue;
      it never fires the mount callback. */
  lemma LaterRenderFlushes(el: Element, view: Value)
    requires el.watcher == Watching(false)
    ensures var r := RenderCallback(el, view);
      && r.queue == []
      && r.trace[..|el.trace|] == el.trace
      && (Truthy(view) ==> r.trace[|el.trace|] == Patch(view))
      && Occurrences(r.trace, DidMount) == Occurrences(el.trace, DidMount)
      && |r.trace| >= |el.queue|
      && r.trace[|r.trace| - |el.queue|..] == DidUpdates(el.queue)
  {
    var prelude := RenderPrelude(el, view);
    var flushed := DidUpdates(el.queue);
    var t := RenderCallback(el, view).trace;
    RenderTrace(el, view);
    assert t == el.trace + prelude + flushed;
    assert t[|t| - |el.queue|..] == flushed;
    RenderPreludeMountsNothing(el, view);
    OccurrencesAbsent(flushed, DidMount);
    OccurrencesAppend(el.trace, prelude, DidMount);
    OccurrencesAppend(el.trace + prelude, flushed, DidMount);
  }

  /** Controller calls in a trace whose only controller calls are one `ControllerCalls` run. */
  lemma CallsAmid(p: seq<Effect>, cs: OMap<ControllerId, set<Hook>>, hook: Hook, tail: seq<Effect>)
    requires forall e :: e in p ==> !e.ControllerCall?
    requires forall e :: e in tail ==> !e.ControllerCall?
    ensures forall id: ControllerId, h: Hook :: (ControllerCall(id, h) in p + ControllerCalls(cs, hook) + tail <==>
      (h == hook && exists hs :: Entry(id, hs) in cs && h in hs))
  {
    var calls := ControllerCalls(cs, hook);
    forall id: ControllerId, h: Hook
      ensures ControllerCall(id, h) in p + calls + tail <==> ControllerCall(id, h) in calls
    {
    }
  }

  /** The effects a render run adds after its controller calls are no controller calls. */
  lemma RenderTailCallsNoController(el: Element)
    requires el.watcher.Watching?
    ensures forall e :: e in RenderTail(el) ==> !e.ControllerCall?
  {
    if !el.watcher.initRender {
      forall e | e in DidUpdates(el.queue)
        ensures e.DidUpdate?
      {
        var i :| 0 <= i < |DidUpdates(el.queue)| && DidUpdates(el.queue)[i] == e;
      }
    }
  }

  lemma RenderAdded(el: Element, view: Value)
    requires el.watcher.Watching?
    ensures RenderCallback(el, view).trace[|el.trace|..]
      == RenderEffects(view) + ControllerCalls(el.controllers, RenderHook(el.watcher.initRender)) + RenderTail(el)
  {
    RenderTrace(el, view);
    SliceAfter(el.trace, RenderPrelude(el, view) + RenderTail(el));
  }

  /** A render run calls a controller exactly when it defines the run's
      callback: `hostMounted` on the first run, `hostUpdated` on later ones;
      no other controller callback happens. */
  lemma RenderCallsControllers(el: Element, view: Value)
    requires el.watcher.Watching?
    ensures forall id: ControllerId, h: Hook :: (ControllerCall(id, h) in RenderCallback(el, view).trace[|el.trace|..] <==>
      (h == RenderHook(el.watcher.initRender) && exists hs :: Entry(id, hs) in el.controllers && h in hs))
  {
    RenderAdded(el, view);
    RenderTailCallsNoController(el);
    CallsAmid(RenderEffects(view), el.controllers, RenderHook(el.watcher.initRender), RenderTail(el));
  }

  /** `getOrInitRenderWatcher`: the first call creates the render watcher,
      whose creation runs the callback once; later calls change nothing. */
  function GetOrInitRenderWatcher(el: Element, view: Value): (r: Element)
    ensures r.watcher.Watching?
    ensures el.watcher.Watching? ==> r == el
    ensures el.watcher.NoWatcher? ==> r == RenderCallback(el.(watcher := Watching(true)), view)
  {
    match el.watcher
    case NoWatcher => RenderCallback(el.(watcher := Watching(true)), view)
    case Watching(_) => el
  }

  /** Re-runs of the render callback, one per tree, as the scheduler triggers them. */
  function Rerenders(el: Element, views: seq<Value>): (r: Element)
    requires el.watcher.Watching?
    ensures r.watcher.Watching?
    decreases |views|
  {
    if |views| == 0 then el else Rerenders(RenderCallback(el, views[0]), views[1..])
  }

  /** Once the first render has happened, re-renders add no mount callback. */
  lemma {:induction false} NoFurtherMounts(el: Element, views: seq<Value>)
    requires el.watcher == Watching(false)
    ensures Occurrences(Rerenders(el, views).trace, DidMount) == Occurrences(el.trace, DidMount)
    decreases |views|
  {
    if |views| > 0 {
      LaterRenderFlushes(el, views[0]);
      NoFurtherMounts(RenderCallback(el, views[0]), views[1..]);
    }
  }

  /** The mount callback fires exactly once however often the element
      re-renders: on the first run of the render callback, if defined. */
  lemma MountedOnce(el: Element, first: Value, views: seq<Value>)
    requires el.watcher == NoWatcher
    ensures Occurrences(Rerenders(GetOrInitRenderWatcher(el, first), views).trace, DidMount)
         == Occurrences(el.trace, DidMount) + (if el.hooks.didMount then 1 else 0)
  {
    FirstRenderMounts(el.(watcher := Watching(true)), first);
    NoFurtherMounts(GetOrInitRenderWatcher(el, first), views);
  }
}

=== FILE: sequences.dfy ===
/** Facts about slicing concatenated sequences, used to locate the parts
    of an effect trace. */
module Sequences {

  /** The part after a prefix is the rest. */
  lemma SliceAfter<T>(a: seq<T>, b: seq<T>)
    ensures (a + b)[|a|..] == b
  {
  }

  /** A sequence is its prefix followed by the rest. */
  lemma PrefixRest<T>(t: seq<T>, a: seq<T>)
    requires |a| <= |t| && t[..|a|] == a
    ensures a + t[|a|..] == t
  {
  }

  /** A prefix of a prefix is a prefix. */
  lemma PrefixOfPrefix<T>(t: seq<T>, b: seq<T>, a: seq<T>)
    requires |a| <= |b| <= |t| && t[..|b|] == b && b[..|a|] == a
    ensures t[..|a|] == a
  {
    assert t[..|a|] == t[..|b|][..|a|];
  }

  /** Regrouping a trace built from a prefix, two two-part runs and a tail. */
  lemma Regroup<T>(a: seq<T>, p1: seq<T>, p2: seq<T>, q1: seq<T>, q2: seq<T>, t: seq<T>)
    ensures a + (p1 + p2) + (q1 + q2) + t == a + (p1 + p2 + q1 + q2 + t)
  {
  }

  /** Where the parts of a three-part sequence sit. */
  lemma Parts<T>(t0: seq<T>, p: seq<T>, m: seq<T>)
    ensures var t := t0 + p + m;
      && t[..|t0|] == t0
      && t[|t0|..] == p + m
      && (|p| > 0 ==> t[|t0|] == p[0])
      && (|m| > 0 ==> t[|t| - 1] == m[|m| - 1])
      && t[|t| - |m|..] == m
  {
  }
}

=== FILE: state_slots.dfy ===
/** Per-instance state slots (index.ts:332-364, 377-379): the getter reads
    the slot's dependency cell; the setter ignores an assignment that is
    `Object.is`-equal to the current value, and otherwise stores the value,
    notifies the cell once and queues one `componentDidUpdate`. */
module StateSlots {
  import opened Values
  import opened Instance
  import opened UpdateQueue

  /** The state getter. */
  function GetState(el: Element, name: string): (r: Read)
    requires name in el.states
    ensures r.value == el.states[name]
    ensures r.el == el.(trace := el.trace + [Depend(StateDep(name))])
  {
    Read(el.(trace := el.trace + [Depend(StateDep(name))]), el.states[name])
  }

  /** The state setter. */
  function SetState(el: Element, name: string, v: Value): (r: Element)
    requires name in el.states
    ensures SameValue(el.states[name], v) ==> r == el
    ensures !SameValue(el.states[name], v) ==>
      && r.states == el.states[name := v]
      && r.trace == el.trace + [Notify(StateDep(name))]
      && r.queue == el.queue + (if el.hooks.didUpdate then [Update(name, el.states[name], v)] else [])
      && r == el.(states := r.states, trace := r.trace, queue := r.queue)
  {
    var current := el.states[name];
    if SameValue(current, v) then el
    else
      var stored := el.(states := el.states[name := v], trace := el.trace + [Notify(StateDep(name))]);
      if el.hooks.didUpdate then QueueUpdated(stored, Update(name, current, v)) else stored
  }

  /** A read after an assignment yields the assigned value. */
  lemma SetThenGet(el: Element, name: string, v: Value)
    requires name in el.states
    ensures GetState(SetState(el, name, v), name).value == v
  {
  }

  /** Repeating an assignment has no further effect: the second one
      neither notifies nor queues. */
  lemma SetStateTwice(el: Element, name: string, v: Value)
    requires name in el.states
    ensures SetState(SetState(el, name, v), name, v) == SetState(el, name, v)
  {
  }

  /** Assigning NaN over NaN is a no-op, as `Object.is` treats NaN as itself. */
  lemma NaNIsUnchanged(el: Element, name: string)
    requires name in el.states && el.states[name] == NaN
    ensures SetState(el, name, NaN) == el
  {
  }

  /** Other slots keep their values. */
  lemma SetStateFrames(el: Element, name: string, v: Value, other: string)
    requires name in el.states && other in el.states && other != name
    ensures SetState(el, name, v).states[other] == el.states[other]
  {
  }
}

=== FILE: update_queue.dfy ===
/** The queue of deferred `componentDidUpdate` calls (index.ts:318, 322-329):
    entries are appended as changes happen and run, oldest first, when the
    render callback flushes the queue after a re-render. */
module UpdateQueue {
  import opened Instance

  /** `queueUpdated`: appends one deferred call. */
  function QueueUpdated(el: Element, u: Update): (r: Element)
    ensures r.queue == el.queue + [u]
    ensures r == el.(queue := r.queue)
  {
    el.(queue := el.queue + [u])
  }

  /** The effects of running the deferred calls of a queue, in queue order. */
  function DidUpdates(q: seq<Update>): (r: seq<Effect>)
    ensures |r| == |q|
    ensures forall i :: 0 <= i < |q| ==> r[i] == DidUpdate(q[i])
  {
    if |q| == 0 then [] else [DidUpdate(q[0])] + DidUpdates(q[1..])
  }

  /** `flushUpdatedQueue`: runs every queued call in insertion order and
      leaves the queue empty; nothing else changes. */
  function FlushUpdatedQueue(el: Element): (r: Element)
    ensures r.queue == []
    ensures |r.trace| == |el.trace| + |el.queue| && r.trace[..|el.trace|] == el.trace
    ensures forall i :: 0 <= i < |el.queue| ==> r.trace[|el.trace| + i] == DidUpdate(el.queue[i])
    ensures r == el.(queue := [], trace := r.trace)
  {
    el.(queue := [], trace := el.trace + DidUpdates(el.queue))
  }

  /** Queues several calls, one after the other. */
  function QueueAll(el: Element, us: seq<Update>): (r: Element)
    ensures r.queue == el.queue + us
    ensures r == el.(queue := r.queue)
    decreases |us|
  {
    if |us| == 0 then el else QueueAll(QueueUpdated(el, us[0]), us[1..])
  }

  /** First in, first out: after queueing `us` and flushing, the calls run
      are the previously queued ones followed by `us`, in order. */
  lemma FlushIsFifo(el: Element, us: seq<Update>)
    ensures var r := FlushUpdatedQueue(QueueAll(el, us));
      && r.queue == []
      && |r.trace| == |el.trace| + |el.queue| + |us|
      && (forall i :: 0 <= i < |el.queue| ==> r.trace[|el.trace| + i] == DidUpdate(el.queue[i]))
      && (forall i :: 0 <= i < |us| ==> r.trace[|el.trace| + |el.queue| + i] == DidUpdate(us[i]))
  {
    var q := QueueAll(el, us);
    var r := FlushUpdatedQueue(q);
    assert q.queue == el.queue + us && q.trace == el.trace;
    forall i | 0 <= i < |el.queue|
      ensures r.trace[|el.trace| + i] == DidUpdate(el.queue[i])
    {
      assert q.queue[i] == el.queue[i];
    }
    forall i | 0 <= i < |us|
      ensures r.trace[|el.trace| + |el.queue| + i] == DidUpdate(us[i])
    {
      assert q.queue[|el.queue| + i] == us[i];
    }
  }

  /** A second flush right after a first runs nothing. */
  lemma FlushIdempotent(el: Element)
    ensures FlushUpdatedQueue(FlushUpdatedQueue(el)) == FlushUpdatedQueue(el)
  {
    var r := FlushUpdatedQueue(el);
    assert r.trace + DidUpdates([]) == r.trace;
  }
}

=== FILE: values.dfy ===
/** The JavaScript values that flow through declared properties, state slots
    and update callbacks, with the primitive operations the element code
    applies to them: truthiness, `isEmpty`, strict equality, `Object.is`,
    `Number(...)` and `String(...)`. Numbers are integer-valued; NaN is kept
    as a value of its own. */
module Values {
  import opened Wrappers
  import Decimal

  datatype Value =
    | Null
    | Undef
    | Bool(b: bool)
    | Num(n: int)
    | NaN
    | Str(s: string)
    | Obj(ref: nat)   // a plain object (for instance a rendered tree), by identity

  /** JavaScript truthiness: `if (v)`. */
  predicate Truthy(v: Value) {
    match v
    case Null => false
    case Undef => false
    case Bool(b) => b
    case Num(n) => n != 0
    case NaN => false
    case Str(s) => s != ""
    case Obj(_) => true
  }

  /** `isEmpty`: falsy, except that `false` and `0` are not empty. */
  function IsEmpty(v: Value): (r: bool)
    ensures r <==> v == Null || v == Undef || v == NaN || v == Str("")
  {
    !(Truthy(v) || v == Bool(false) || v == Num(0))
  }

  /** `a === b`: structural on primitives, identity on objects, and NaN is
      equal to nothing. */
  predicate StrictEquals(a: Value, b: Value) {
    a == b && a != NaN
  }

  /** `Object.is(a, b)`: like `===` except that NaN is the same as NaN
      (there is no negative zero among integer-valued numbers). */
  predicate SameValue(a: Value, b: Value) {
    a == b
  }

  /** `xs.indexOf(v)`: the first position holding a value strictly equal to `v`, or -1. */
  function IndexOf(xs: seq<Value>, v: Value): (r: int)
    ensures -1 <= r < |xs|
    ensures r >= 0 ==> StrictEquals(xs[r], v) && forall j :: 0 <= j < r ==> !StrictEquals(xs[j], v)
    ensures r == -1 <==> forall j :: 0 <= j < |xs| ==> !StrictEquals(xs[j], v)
  {
    if |xs| == 0 then -1
    else if StrictEquals(xs[0], v) then 0
    else var k := IndexOf(xs[1..], v); if k == -1 then -1 else k + 1
  }

  /** The value `getAttribute` hands over: null for an absent attribute. */
  function FromAttribute(raw: Option<string>): (v: Value)
    ensures v == Null || v.Str?
  {
    match raw
    case None => Null
    case Some(s) => Str(s)
  }

  /** `Number(v)` on the values of the model. A string converts when it is
      an optionally signed run of decimal digits, the empty string gives 0,
      and any other string gives NaN. */
  function ToNumber(v: Value): (r: Value)
    ensures r.Num? || r == NaN
  {
    match v
    case Null => Num(0)
    case Undef => NaN
    case Bool(b) => Num(if b then 1 else 0)
    case Num(n) => v
    case NaN => NaN
    case Str(s) =>
      if s == "" then Num(0)
      else (match Decimal.Parse(s)
        case Some(n) => Num(n)
        case None => NaN)
    case Obj(_) => NaN
  }

  /** `String(v)`, which `setAttribute` applies to its value. */
  function ToStr(v: Value): string {
    match v
    case Null => "null"
    case Undef => "undefined"
    case Bool(b) => if b then "true" else "false"
    case Num(n) => Decimal.Format(n)
    case NaN => "NaN"
    case Str(s) => s
    case Obj(_) => "[object Object]"
  }

  /** Decimal text converts back to the integer it was written from. */
  lemma ToNumberOfFormat(n: int)
    ensures ToNumber(Str(Decimal.Format(n))) == Num(n)
  {
    Decimal.ParseFormat(n);
  }
}

=== FILE: wrappers.dfy ===
/** The optional value used throughout the model for JavaScript's
    "present or absent" results (`Map.prototype.get`, `getAttribute`). */
module Wrappers {

  datatype Option<+T> = None | Some(value: T) {

    /** Returns the value in Some, or the given default when None. */
    function GetOr(default: T): T {
      match this
      case Some(v) => v
      case None => default
    }
  }
}
